=== FILE: README.md ===
# phonegap-web-api in Dafny

A model of the core of phonegap-web-api, a small Node.js HTTP service. The
service packs a user's project directory into an archive and submits it to the
PhoneGap Build service. It records the remote app in MongoDB and announces a
`check` task on an AMQP exchange. Every answer the routes and the error handler send is a JSON
envelope: `{"code":1,"result":…}` (`{"code":1}` when the result is `undefined`) or
`{"code":0,"message":…}`. A handler rejected with `undefined` sends nothing, a falsy exception is
passed on to express, and paths outside the route table get express's own answer.

The model is functional. JavaScript values are a datatype (`Js.Value`), and
a thrown exception is a `Thrown` result. How a promise settles is a
`Settlement`; `Unsettled` is a promise that never settles. Each module of the
service maps to one Dafny module:

| file | module | what it models |
|---|---|---|
| js.dfy | `Js` | values, truthiness, property reads, `String(v)`, exceptions, promise settlement |
| json.dfy | `Json` | `JSON.stringify`, and the decoding of a JSON string literal as the inverse of its escaping |
| utils.dfy | `Utils` | `escape` and `projectPath` (lib/utils.js) |
| messages.dfy | `Messages` | `error`, `success` and `convertPhonegapError` (lib/messages.js) |
| route.dfy | `Route` | the API table, route paths, `getArguments`, the raw body, and the status and body of every answer (lib/route.js) |
| mongo.dfy | `Mongo` | the project store keyed by `(user, project)`, and the cached `connection`/`pgpc` handles as a state machine (lib/mongo.js) |
| queue.dfy | `Queue` | the `publishTask` message, and the connection/exchange/consumer state machine of `start` and `initQueues` (lib/queue.js) |
| build.dfy | `Build` | `build`, `makeTar`, `uploadToPhonegap` and `saveToMongo` as one function of the collaborators' outcomes, returning the result and the trace of calls made (lib/build.js) |

Foreign calls are parameters:
- `JSON.parse` is a partial function `string -> Option<Value>`.
- The directory template is a `Utils.Template`, and `utils.tmp()` is a string in `Build.Outcomes`.
- `fs.exists`, `tar`, the MongoDB driver, PhoneGap Build authentication and upload, and `fs.unlink` are outcomes (`Build.Outcomes`), events (`Mongo.Event`, `Queue.Event`) or effects in a trace.

A few facts about the code that shape the model:
- Records are keyed by `(user, project)`.
- An existing app is updated with `PUT /apps/<id>`; a project without an app id is created with `POST /apps`.
- The task consumer acknowledges every delivery, with prefetch 10, and does nothing else with it.
- MongoDB has no automatic retry and no backoff: after a failed connect or a `close` both handles are null, and the next store request calls `MongoClient.connect` again.
- The broker connection is opened once, by `start()`.

## Model

| member | source | states |
|---|---|---|
| Utils.EscapeText | lib/utils.js:27-28 | the escaped text has one character per UTF-16 code unit of the input, all in `[a-z0-9-]`; on text without astral characters, position by position, an ASCII letter or digit is kept lower-cased and anything else becomes `-` |
| Utils.EscapeKeepsSlug | lib/utils.js:28 | text already in `[a-z0-9-]` is left unchanged by escaping |
| Utils.EscapeTextIdempotent | lib/utils.js:28 | escaping twice equals escaping once |
| Utils.Escape | lib/utils.js:27-28 | a falsy value escapes to the empty string; a truthy non-string throws; a string gives its escaped text; every result is in `[a-z0-9-]` |
| Utils.Render | lib/utils.js:38 | every character of the filled-in template comes from the template's literal text or from one of the substituted values |
| Utils.ProjectPath | lib/utils.js:31-38 | the path exists exactly when both names escape; any `/` or `.` in it comes from the template, never from the user or project name |
| Json.Stringify | lib/messages.js:22 | `undefined` has no JSON text; every other value has non-empty text, which starts with `"` exactly for strings |
| Json.EscapeJson | lib/messages.js:22-24 | escaping leaves a string unchanged exactly when no character needs escaping, and never writes a control character |
| Json.UnescapeEscape | lib/messages.js:22-24 | decoding the escaped body of a string literal gives back the original string |
| Messages.MessageText | lib/messages.js:22-25 | the message of a string is its escaped text with the quotes removed; that of any other value is its JSON text unchanged, not starting with a quote; `undefined` has none |
| Messages.ErrorMessage | lib/messages.js:21-27 | the failure envelope is the serialisation of `{code: 0, message: m}` with `m` the message text as a string; it throws exactly for `undefined` |
| Messages.SuccessMessage | lib/messages.js:32-34 | the success envelope is the serialisation of `{code: 1, result: data}`, without `result` for `undefined` |
| Messages.EnvelopeLiteral | lib/messages.js:26 | written out, an envelope is `{"code":<digit>,"<key>":<value>}` |
| Messages.MessageOfPlainString | lib/messages.js:22-26 | a string with nothing to escape is the message verbatim: `{"code":0,"message":"<s>"}` |
| Messages.MessageOfEscapedString | lib/messages.js:22-26 | a string that needs escaping is not the message verbatim; a client decoding the envelope reads the once-escaped text |
| Messages.SuccessIsNotError | lib/messages.js:21-34 | no failure envelope equals a success envelope |
| Messages.ConvertPhonegapError | lib/messages.js:39-48 | works on `error.message` when truthy, else on `error`; returns the parsed value's `error` property when the text parses, and the subject unchanged when it does not (or parses to `null`); throws for `null` and `undefined` |
| Messages.ConvertServiceError | lib/messages.js:40-43 | an error whose message is a JSON object converts to that object's `error` member |
| Messages.ConvertPlainString | lib/messages.js:45-46 | a string that is not JSON converts to itself |
| Route.NonRaw | lib/route.js:72-76 | the path arguments are the declared ones without the raw token: as many as the declared ones minus the raw tokens, and a name is kept exactly when it is declared and is not the token |
| Route.NonRawAppend | lib/route.js:72-76 | dropping the raw token keeps the declared order: it distributes over concatenation, and a single name survives exactly when it is not the token |
| Route.RoutePathShape | lib/route.js:70-78 | the path is `/name` followed by `/:arg` for each non-raw argument, in declared order |
| Route.RoutePathIgnoresRaw | lib/route.js:73 | the raw token contributes nothing to a path |
| Route.RouteParameterCount | lib/route.js:72-78 | when no name contains `:`, a path has one `:` per non-raw argument |
| Route.TablePaths | lib/route.js:29-35 | the five registered paths are `/me/:key`, `/init/:user/:project/:fs`, `/info/:user/:project/:fs/:uid`, `/remove/:user/:project/:uid` and `/build/:user/:project/:fs/:uid/:key` |
| Route.Argument | lib/route.js:44-48 | the raw slot gets the parsed body, and throws a `SyntaxError` exactly when the body does not parse; every other slot gets `req.params[arg]` as a string, or `undefined` when the request has no such parameter |
| Route.Arguments | lib/route.js:41-51 | one value per declared argument, in order: the parsed body for the raw slot, the path parameter or `undefined` for the others; the call throws exactly when a raw slot's body does not parse |
| Route.AccumulateBody | lib/route.js:58-67 | the raw body is the concatenation of the data chunks in arrival order, starting from the empty string |
| Route.ErrorMiddleware | lib/route.js:92-95 | an error reaching the error handler is answered 500 with its failure envelope |
| Route.Respond | lib/route.js:79-88 | every answer is 200 or 500; a missing handler and an unparsable body go to the error handler |
| Route.SettledHandlerAnswers200 | lib/route.js:82-87 | a resolved handler is answered 200 with the success envelope, a rejected one 200 with the failure envelope |
| Route.UnboundRoutesFail | lib/route.js:32-33 | the `info` and `remove` routes always reach the error handler |
| Mongo.Find | lib/mongo.js:28 | a lookup finds a record exactly when its `(user, project)` key is stored, and returns a document with that key and the stored data |
| Mongo.Save | lib/mongo.js:37-41 | after a save the key holds `{user, project, data}`; every other key is unchanged |
| Mongo.SaveFindOther | lib/mongo.js:37-39 | a save does not change what a lookup of any other key finds |
| Mongo.SaveIdempotent | lib/mongo.js:37-41 | saving the same document twice equals saving it once |
| Mongo.SaveOverwrites | lib/mongo.js:37-41 | a later save on the same key replaces an earlier one |
| Mongo.FindProject | lib/mongo.js:25-32 | the lookup rejects with the collection's error, never settles when the collection does not, and resolves to nothing when `findOne` fails |
| Mongo.SaveProject | lib/mongo.js:34-43 | the save resolves exactly when the collection resolves and `update` succeeds, and only then changes the store |
| Mongo.FindAfterSaveProject | lib/mongo.js:25-43 | a lookup after a successful save finds the saved document |
| Mongo.Next | lib/mongo.js:45-84 | a request with `pgpc` set returns it unchanged with no other effect; a connect starts only with no connection; a failed connect and every close set both handles to null; a promise is settled only when it is created on an open database or when the connect it waits for succeeds |
| Mongo.RunReachable | lib/mongo.js:45-84 | from any reachable state the two handles stay null together, a pending `connection` goes with a cached promise waiting for that very connect, and the cached promise waits exactly when its status says so |
| Mongo.ConnectOnlyWhenBothNull | lib/mongo.js:62-65 | a connect is started exactly when a request finds `pgpc` null; `connection` is then null too, so a cached connection is never reused |
| Mongo.FailedCollectionStaysCached | lib/mongo.js:46-59 | a failed collection promise stays cached with the open connection, and is what every request gets, with no new connect, until a close or a failed connect |
| Mongo.NoLateSettlement | lib/mongo.js:49-59 | a collection promise that no longer waits for any connect is never settled again |
| Mongo.StrandedAfterConnectFailure | lib/mongo.js:67-73 | the promises waiting for a connect that fails are never settled |
| Mongo.DroppedPromiseSettles | lib/mongo.js:45-84 | a close during a pending connect empties the cache but does not cancel the connect: the dropped promise is still settled when the connect succeeds, and the next request starts another connect |
| Queue.Publish | lib/queue.js:47-55 | every publish uses routing key `#` and content type `application/json`, and its message is the task's `{type, user, project, key}` object with no other member, reading back as the task |
| Queue.BodyMembers | lib/queue.js:48-53 | the message object has exactly four members, `type`, `user`, `project` and `key` in that order, holding the task's kind, user, project and key |
| Queue.TaskOfBody | lib/queue.js:48-53 | the message `{type, user, project, key}` reads back as the four arguments |
| Queue.Next | lib/queue.js:24-66 | topology is declared exactly on the first `ready`; once installed the exchange handle is never dropped; a settled connection promise stays as it is |
| Queue.TopologyDeclaredOnce | lib/queue.js:58-66 | over any run the queue and the exchange are each declared at most once |
| Queue.PublishesKeepOrder | lib/queue.js:38-47 | after `ready`, what is sent followed by what still waits is everything published, in call order |
| Queue.DeclaredPublishesAll | lib/queue.js:47-55 | once the exchange is declared, every publish is sent, in order |
| Queue.PublishBeforeReadyThrows | lib/queue.js:47 | `publishTask` before `ready` throws and changes nothing |
| Queue.RunReachable | lib/queue.js:24-66 | the exchange handle and the queue declaration exist exactly when `ready` has been handled |
| Queue.DeliveryAcknowledged | lib/queue.js:30-35 | each delivery is acknowledged once, by itself, and nothing is published |
| Queue.ErrorIsFinal | lib/queue.js:61-65 | an `error` before `ready` rejects the connection promise for good |
| Build.Converted | lib/build.js:69-73 | a failure is rejected with the converted error |
| Build.AppId | lib/build.js:57 | the app id is the stored record's `data.id`, and there is one exactly when the record, its data and the id are all truthy |
| Build.Endpoint | lib/build.js:57-65 | the upload is a `PUT` to `/apps/<id>` exactly when there is an app id, and a `POST` to `/apps` otherwise |
| Build.SaveToMongo | lib/build.js:31-36 | the `check` task is always announced first; with an exchange handle the save follows and the result is the service's answer once the save succeeds; without one the publish throws and the save is never made |
| Build.UploadToPhonegap | lib/build.js:38-75 | the lookup comes first; the upload chain never checks, packs or removes files; a failed lookup rejects with the converted error |
| Build.MakeTar | lib/build.js:77-88 | `tar czf <tmp>.tar.gz *` runs in the project directory first; a `tar` failure rejects with its own error after removing the archive |
| Build.Build | lib/build.js:90-96 | the call throws exactly when a name cannot be escaped; otherwise the existence check comes first |
| Build.NotFoundExactlyWhenAbsent | lib/build.js:90-96 | an absent directory rejects with `Project not found` and nothing more; `tar` runs next exactly when the directory exists |
| Build.UnlinkOnce | lib/build.js:80-87 | once `tar` has started, the archive is removed exactly once, as the last call, whenever the build settles |
| Build.TarFailure | lib/build.js:84-87 | a `tar` failure rejects with `tar`'s error; there is no lookup, authentication or upload |
| Build.UploadEndpoint | lib/build.js:47-65 | every upload sends the form `My App` / `file` / not private / the archive, with `PUT` exactly when the record has an app id |
| Build.FailuresConverted | lib/build.js:69-74 | a failed lookup, authentication or upload rejects with the converted error |
| Build.SuccessfulUpload | lib/build.js:67-68 | after a successful upload exactly one `check` task is announced; with an exchange handle the save follows and the build resolves to the upload's answer once the save succeeds; without one the build rejects with the `TypeError` and nothing is saved |

## Left out

- lib/me.js, lib/init.js and lib/logger.js are not part of this model; neither is logging (`console.log` and the logger calls).
- Floating-point numbers, `NaN` and symbols: `Js.Value` numbers are integers.
- Js.Value: `Num` is any integer. JavaScript numbers are doubles, so integers beyond 2^53 are inexact, and from 10^21 on `String` and `JSON.stringify` write exponent notation, which `Js.IntToString` does not model. `Json.Stringify`, `Messages.SuccessMessage` and the `/apps/<id>` URL of `Build.Endpoint` are exact only below those bounds.
- `JSON.parse`: a parameter of the operations that call it, not a parser.
- `utils.tmp` and the template engine: the archive's base name is an outcome, and the directory template is a sequence of literal text and the two slots.
- `utils.template`: only as `projectPath` uses it.
- Event-loop interleaving: every asynchronous step is a sequential event or a position in a trace.
- The end-to-end wiring from routes to the build chain: the `info` and `remove` entries name functions lib/build.js does not export (modelled by `Route.UnboundRoutesFail`), and the `build` route passes six arguments where `build.build` takes three, so its `key` receives the `fs` parameter. `Route` and `Build` are therefore modelled separately.
- The message texts of engine errors (`TypeError`, `SyntaxError`): the errors carry their names only. These errors serialise as `{}`, so answers do not depend on the texts.
- What express does after a falsy exception (`Route.Response.PassedOn`).
- The broker client's own reconnection, a second `start()`, and a second `error` event: the model starts from one `start()` and ignores a repeated `error`.
- Mongo.Next: the `db.collection` callback is taken to answer within the event that calls it.
- Mongo.Next: all promises waiting for one connect receive the same collection error. In runs from the start a request that finds `pgpc` null always starts its own connect (`Mongo.ConnectOnlyWhenBothNull`), so only one promise waits for each connect there.
- Mongo.Next: a `close` may arrive in any state, which covers repeated closes of databases opened earlier and the driver's own reconnection without modelling either.
- Build.Build: only whether `queue.publishTask` throws is modelled; the time the publish is actually sent is the queue module's `Queue.PublishesKeepOrder`.
- Build.Build: the `fs.unlink` callback and its errors are not modelled; the call is recorded in the trace.
- Route.Respond: states status 200 or 500 and the error-handler cases; the per-outcome bodies are `Route.SettledHandlerAnswers200`.
- Utils.EscapeText: the position-by-position statement is made for text without astral characters only; an astral character becomes `--`, one dash per UTF-16 code unit.

=== FILE: build.dfy ===
/** The build submission (lib/build.js): check that the project directory
    exists, pack it into a temporary archive with `tar`, look up the stored
    record, authenticate, upload the archive to the remote build service
    (updating the known app or creating a new one), then announce a `check`
    task and save the service's answer.

    Every collaborator is an outcome given in advance (`Outcomes`), and the
    operation returns how its promise settles together with the trace of the
    calls it made, in order. */
module Build {
  import opened Js
  import Utils
  import Messages
  import Queue
  import Mongo

  datatype Verb = Put | Post

  /** The multipart form of every upload. */
  datatype UploadForm = UploadForm(title: string, createMethod: string, isPrivate: bool, file: string)

  /** The calls the build makes, in the order it makes them. `PublishTask`
      is the call of `queue.publishTask`, recorded whether or not it throws. */
  datatype Effect =
    | CheckExists(path: string)
    | RunTar(command: string, cwd: string)
    | FindProject(user: Value, project: Value)
    | Authenticate(token: Value)
    | Upload(verb: Verb, url: string, form: UploadForm)
    | PublishTask(task: Queue.Task)
    | SaveProject(user: Value, project: Value, data: Value)
    | Unlink(file: string)

  /** How every collaborator answers: whether the project directory exists,
      the name `utils.tmp` generates, how `tar`, the record lookup,
      authentication, the upload and the save settle, and whether the queue
      module's exchange handle is set. */
  datatype Outcomes = Outcomes(
    pathExists: bool,
    tmpBase: string,
    tar: Settlement<()>,
    lookup: Settlement<Option<Mongo.Doc>>,
    auth: Settlement<()>,
    upload: Settlement<Value>,
    exchangeSet: bool,
    save: Settlement<()>)

  /** How the returned promise settles, and the calls made on the way. */
  datatype Run = Run(result: Settlement<Value>, trace: seq<Effect>)

  const NotFound: Value := Str("Project not found")

  /** The rejection handlers `q.reject(messages.convertPhonegapError(e))`:
      the converted error, or the exception the conversion throws. */
  function Converted(e: Value, parse: string -> Option<Value>): (r: Settlement<Value>)
    ensures r.Rejected?
    ensures Messages.ConvertPhonegapError(e, parse).Returned? ==> r.reason == Messages.ConvertPhonegapError(e, parse).value
  {
    match Messages.ConvertPhonegapError(e, parse)
    case Returned(v) => Rejected(v)
    case Throws(x) => Rejected(x)
  }

  /** `projectData && projectData.data && projectData.data.id`, when truthy. */
  function AppId(item: Option<Mongo.Doc>): (r: Option<Value>)
    ensures r.Some? ==> Truthy(r.value)
    ensures r.Some? <==> item.Some? && Truthy(item.value.data) && Truthy(Prop(item.value.data, "id"))
    ensures r.Some? ==> r.value == Prop(item.value.data, "id")
  {
    if item.Some? && Truthy(item.value.data) then
      var id := Prop(item.value.data, "id");
      if Truthy(id) then Some(id) else None
    else None
  }

  /** `PUT /apps/<id>` for a known app, `POST /apps` otherwise. */
  function Endpoint(item: Option<Mongo.Doc>): (r: (Verb, string))
    ensures r.0 == Put <==> AppId(item).Some?
    ensures AppId(item).Some? ==> r.1 == "/apps/" + ToJsString(AppId(item).value)
    ensures AppId(item).None? ==> r.1 == "/apps"
  {
    match AppId(item)
    case Some(id) => (Put, "/apps" + "/" + ToJsString(id))
    case None => (Post, "/apps")
  }

  function Form(file: string): UploadForm {
    UploadForm("My App", "file", false, file)
  }

  /** `saveToMongo(data, key, user, project)`: announce the `check` task,
      then save and resolve to `data`. With no exchange handle,
      `publishTask` throws, so the save is never made. */
  function SaveToMongo(data: Value, key: Value, user: Value, project: Value, o: Outcomes): (r: Run)
    ensures |r.trace| >= 1 && r.trace[0] == PublishTask(Queue.Task(Str("check"), user, project, key))
    ensures !o.exchangeSet ==> r == Run(Rejected(TypeErrorValue), [r.trace[0]])
    ensures o.exchangeSet ==> r.trace == [r.trace[0], SaveProject(user, project, data)]
    ensures o.exchangeSet && o.save.Resolved? ==> r.result == Resolved(data)
    ensures o.exchangeSet && o.save.Rejected? ==> r.result == Rejected(o.save.reason)
    ensures o.save.Unsettled? ==> r.result.Unsettled? || !o.exchangeSet
  {
    var publish := PublishTask(Queue.Task(Str("check"), user, project, key));
    if !o.exchangeSet then Run(Rejected(TypeErrorValue), [publish])
    else
      var trace := [publish, SaveProject(user, project, data)];
      match o.save
      case Resolved(_) => Run(Resolved(data), trace)
      case Rejected(e) => Run(Rejected(e), trace)
      case Unsettled => Run(Unsettled, trace)
  }

  /** `uploadToPhonegap(key, file, user, project)`: look the record up,
      authenticate with the key, and upload to the endpoint the record
      selects. A failed lookup, authentication or upload rejects with the
      converted error; a failure of the save passes through unchanged. */
  function UploadToPhonegap(key: Value, file: string, user: Value, project: Value, o: Outcomes,
                            parse: string -> Option<Value>): (r: Run)
    ensures |r.trace| >= 1 && r.trace[0] == FindProject(user, project)
    ensures forall f :: f in r.trace ==> !f.Unlink? && !f.RunTar? && !f.CheckExists?
    ensures o.lookup.Rejected? ==> r == Run(Converted(o.lookup.reason, parse), [FindProject(user, project)])
  {
    var find := [FindProject(user, project)];
    match o.lookup
    case Rejected(e) => Run(Converted(e, parse), find)
    case Unsettled => Run(Unsettled, find)
    case Resolved(item) =>
      var authed := find + [Authenticate(key)];
      match o.auth
      case Rejected(e) => Run(Converted(e, parse), authed)
      case Unsettled => Run(Unsettled, authed)
      case Resolved(_) =>
        var (verb, url) := Endpoint(item);
        var uploaded := authed + [Upload(verb, url, Form(file))];
        match o.upload
        case Rejected(e) => Run(Converted(e, parse), uploaded)
        case Unsettled => Run(Unsettled, uploaded)
        case Resolved(data) =>
          var saved := SaveToMongo(data, key, user, project, o);
          Run(saved.result, uploaded + saved.trace)
  }

  /** The temporary archive's name. */
  function TmpFile(o: Outcomes): string {
    o.tmpBase + ".tar.gz"
  }

  /** `makeTar(key, path, user, project)`: pack the directory, then upload;
      the archive is removed once the upload chain settles, or right away
      when `tar` fails, which rejects with `tar`'s own error. */
  function MakeTar(key: Value, path: string, user: Value, project: Value, o: Outcomes,
                   parse: string -> Option<Value>): (r: Run)
    ensures |r.trace| >= 1 && r.trace[0] == RunTar("tar czf " + TmpFile(o) + " *", path)
    ensures o.tar.Rejected? ==> r == Run(Rejected(o.tar.reason), [r.trace[0], Unlink(TmpFile(o))])
  {
    var tmp := TmpFile(o);
    var tar := [RunTar("tar czf " + tmp + " *", path)];
    match o.tar
    case Rejected(e) => Run(Rejected(e), tar + [Unlink(tmp)])
    case Unsettled => Run(Unsettled, tar)
    case Resolved(_) =>
      var up := UploadToPhonegap(key, tmp, user, project, o, parse);
      Run(up.result, tar + up.trace + (if up.result.Unsettled? then [] else [Unlink(tmp)]))
  }

  /** `build.build(user, project, key)` over the directory template `tpl`:
      escaping a name that is neither a string nor falsy throws out of the
      call; otherwise the existence check decides between rejecting with
      `'Project not found'` and `makeTar`. `fs.exists` reports through the
      error argument `q.denodeify` expects, so the promise resolves when the
      directory is absent. */
  function Build(user: Value, project: Value, key: Value, tpl: Utils.Template, o: Outcomes,
                 parse: string -> Option<Value>): (r: Thrown<Run>)
    ensures r.Throws? <==> Utils.ProjectPath(tpl, user, project).Throws?
    ensures r.Returned? ==> |r.value.trace| >= 1 && r.value.trace[0] == CheckExists(Utils.ProjectPath(tpl, user, project).value)
  {
    match Utils.ProjectPath(tpl, user, project)
    case Throws(x) => Throws(x)
    case Returned(path) =>
      var check := [CheckExists(path)];
      if !o.pathExists then Returned(Run(Rejected(NotFound), check))
      else
        var m := MakeTar(key, path, user, project, o, parse);
        Returned(Run(m.result, check + m.trace))
  }

  /** The build rejects with `'Project not found'` and does nothing more
      exactly when the directory is absent; otherwise it runs `tar` next. */
  lemma NotFoundExactlyWhenAbsent(user: Value, project: Value, key: Value, tpl: Utils.Template, o: Outcomes,
                                  parse: string -> Option<Value>)
    requires Utils.ProjectPath(tpl, user, project).Returned?
    ensures var r := Build(user, project, key, tpl, o, parse).value;
      && (!o.pathExists ==> r.result == Rejected(NotFound) && |r.trace| == 1)
      && (o.pathExists <==> |r.trace| >= 2 && r.trace[1].RunTar?)
  {
  }

  /** Once `tar` has been started, the archive is removed exactly once, as
      the last call, on every path that settles: a `tar` failure, an upload
      chain that succeeds, or one that fails at any step. A chain that never
      settles never removes it. */
  lemma UnlinkOnce(user: Value, project: Value, key: Value, tpl: Utils.Template, o: Outcomes,
                   parse: string -> Option<Value>)
    requires Utils.ProjectPath(tpl, user, project).Returned? && o.pathExists
    ensures var r := Build(user, project, key, tpl, o, parse).value;
      && (!r.result.Unsettled? ==> Count(Unlink(TmpFile(o)), r.trace) == 1 && r.trace[|r.trace| - 1] == Unlink(TmpFile(o)))
      && (r.result.Unsettled? ==> Count(Unlink(TmpFile(o)), r.trace) == 0)
  {
    var path := Utils.ProjectPath(tpl, user, project).value;
    var tmp := TmpFile(o);
    var check := [CheckExists(path)];
    var tar := [RunTar("tar czf " + tmp + " *", path)];
    CountAbsent(Unlink(tmp), check);
    CountAbsent(Unlink(tmp), tar);
    assert Count(Unlink(tmp), [Unlink(tmp)]) == 1;
    var m := MakeTar(key, path, user, project, o, parse);
    CountAppend(Unlink(tmp), check, m.trace);
    match o.tar
    case Rejected(e) =>
      CountAppend(Unlink(tmp), tar, [Unlink(tmp)]);
    case Unsettled =>
    case Resolved(_) =>
      var up := UploadToPhonegap(key, tmp, user, project, o, parse);
      CountAbsent(Unlink(tmp), up.trace);
      var tail: seq<Effect> := if up.result.Unsettled? then [] else [Unlink(tmp)];
      CountAppend(Unlink(tmp), tar, up.trace);
      CountAppend(Unlink(tmp), tar + up.trace, tail);
  }

  /** A `tar` failure rejects with `tar`'s error; there is no lookup, no
      authentication and no upload, only the removal of the archive. */
  lemma TarFailure(user: Value, project: Value, key: Value, tpl: Utils.Template, o: Outcomes,
                   parse: string -> Option<Value>)
    requires Utils.ProjectPath(tpl, user, project).Returned? && o.pathExists && o.tar.Rejected?
    ensures var path := Utils.ProjectPath(tpl, user, project).value;
      Build(user, project, key, tpl, o, parse) == Returned(Run(Rejected(o.tar.reason),
        [CheckExists(path), RunTar("tar czf " + TmpFile(o) + " *", path), Unlink(TmpFile(o))]))
  {
    var path := Utils.ProjectPath(tpl, user, project).value;
    var m := MakeTar(key, path, user, project, o, parse);
    assert [CheckExists(path)] + m.trace == [CheckExists(path), m.trace[0], m.trace[1]];
  }

  /** Every upload uses the fixed form over the archive, and it is a `PUT`
      to the known app exactly when the stored record carries an app id. */
  lemma UploadEndpoint(key: Value, file: string, user: Value, project: Value, o: Outcomes,
                       parse: string -> Option<Value>)
    requires o.lookup.Resolved? && o.auth.Resolved?
    ensures var r := UploadToPhonegap(key, file, user, project, o, parse);
      && |r.trace| >= 3
      && r.trace[2].Upload?
      && r.trace[2].form == UploadForm("My App", "file", false, file)
      && (r.trace[2].verb == Put <==> AppId(o.lookup.value).Some?)
      && (AppId(o.lookup.value).Some? ==> r.trace[2].url == "/apps/" + ToJsString(AppId(o.lookup.value).value))
      && (AppId(o.lookup.value).None? ==> r.trace[2].url == "/apps")
  {
  }

  /** A failed lookup, authentication or upload rejects with the converted
      error. */
  lemma FailuresConverted(key: Value, file: string, user: Value, project: Value, o: Outcomes,
                          parse: string -> Option<Value>)
    ensures o.lookup.Rejected? ==>
      UploadToPhonegap(key, file, user, project, o, parse).result == Converted(o.lookup.reason, parse)
    ensures o.lookup.Resolved? && o.auth.Rejected? ==>
      UploadToPhonegap(key, file, user, project, o, parse).result == Converted(o.auth.reason, parse)
    ensures o.lookup.Resolved? && o.auth.Resolved? && o.upload.Rejected? ==>
      UploadToPhonegap(key, file, user, project, o, parse).result == Converted(o.upload.reason, parse)
  {
  }

  /** After a successful upload exactly one `check` task is announced. With
      an exchange handle the save follows, and the build resolves to the
      service's answer itself once the save succeeds; without one the
      publish throws, nothing is saved, and the build rejects with the
      `TypeError`. */
  lemma SuccessfulUpload(key: Value, file: string, user: Value, project: Value, o: Outcomes,
                         parse: string -> Option<Value>)
    requires o.lookup.Resolved? && o.auth.Resolved? && o.upload.Resolved?
    ensures var r := UploadToPhonegap(key, file, user, project, o, parse);
      var task := PublishTask(Queue.Task(Str("check"), user, project, key));
      && |r.trace| >= 4
      && r.trace[3] == task
      && Count(task, r.trace) == 1
      && (o.exchangeSet ==> |r.trace| == 5 && r.trace[4] == SaveProject(user, project, o.upload.value))
      && (o.exchangeSet && o.save.Resolved? ==> r.result == Resolved(o.upload.value))
      && (!o.exchangeSet ==> |r.trace| == 4 && r.result == Rejected(TypeErrorValue))
  {
    var r := UploadToPhonegap(key, file, user, project, o, parse);
    var task := PublishTask(Queue.Task(Str("check"), user, project, key));
    var rest := r.trace[4..];
    assert r.trace[..3] + [task] + rest == r.trace;
    assert forall f :: f in rest ==> f.SaveProject?;
    CountAbsent(task, r.trace[..3]);
    CountAbsent(task, rest);
    CountAppend(task, r.trace[..3] + [task], rest);
    CountAppend(task, r.trace[..3], [task]);
  }
}

=== FILE: js.dfy ===
/** JavaScript values as the service handles them, and the few language-level
    operations its code relies on: truthiness, property reads, string coercion,
    thrown exceptions and promise settlement.

    Numbers are integers only; floating point, NaN and symbols are not
    modelled, and neither are the limits of doubles: integers beyond 2^53 are
    exact here, and `String` never switches to exponent notation. */
module Js {

  datatype Option<+T> = None | Some(value: T) {
    /** The wrapped value, or `default` when there is none. */
    function GetOr(default: T): T {
      if Some? then value else default
    }
  }

  /** An own enumerable property: its key and its value, in property
      enumeration order. */
  datatype Field = Field(key: string, val: Value)

  /** A JavaScript value. `ErrorObj` is an instance of `Error`: its `name` and
      `message` are readable but not enumerable, and `props` holds the own
      enumerable properties some producers add (such as `code` on a failed
      child process). */
  datatype Value =
    | Undefined
    | Null
    | Bool(b: bool)
    | Num(n: int)
    | Str(s: string)
    | Arr(items: seq<Value>)
    | Obj(fields: seq<Field>)
    | ErrorObj(name: string, message: string, props: seq<Field>)

  /** The outcome of evaluating an expression: a value, or a thrown exception. */
  datatype Thrown<+T> = Returned(value: T) | Throws(exception: Value)

  /** The eventual state of a promise. `Unsettled` is a promise nobody ever
      resolves or rejects. */
  datatype Settlement<+T> = Resolved(value: T) | Rejected(reason: Value) | Unsettled

  /** The `TypeError` the engine throws for a property read on `null` or
      `undefined` or a call of a non-function; its message text is the
      engine's and is not modelled. */
  const TypeErrorValue: Value := ErrorObj("TypeError", "", [])

  /** The `SyntaxError` that `JSON.parse` throws on malformed text. */
  const SyntaxErrorValue: Value := ErrorObj("SyntaxError", "", [])

  predicate Nullish(v: Value) {
    v.Undefined? || v.Null?
  }

  /** JavaScript's ToBoolean. */
  predicate Truthy(v: Value) {
    match v
    case Undefined => false
    case Null => false
    case Bool(b) => b
    case Num(n) => n != 0
    case Str(s) => s != ""
    case _ => true
  }

  /** The value of the first property named `key`, or `undefined`. */
  function Lookup(fields: seq<Field>, key: string): (r: Value)
    ensures r != Undefined ==> exists i :: 0 <= i < |fields| && fields[i].key == key && fields[i].val == r
  {
    if |fields| == 0 then Undefined
    else if fields[0].key == key then fields[0].val
    else
      var r := Lookup(fields[1..], key);
      assert r != Undefined ==> exists i :: 1 <= i < |fields| && fields[i].key == key && fields[i].val == r by {
        if r != Undefined {
          var j :| 0 <= j < |fields[1..]| && fields[1..][j].key == key && fields[1..][j].val == r;
          assert fields[j + 1] == fields[1..][j];
        }
      }
      r
  }

  /** `v[key]` for a value that is neither `null` nor `undefined`. Only the
      property names the service reads (`message`, `error`, `data`, `id`) are
      meant: for those, primitives and arrays have none. */
  function Prop(v: Value, key: string): Value
    requires !Nullish(v)
  {
    match v
    case Obj(fields) => Lookup(fields, key)
    case ErrorObj(name, message, props) =>
      if key == "message" then Str(message)
      else if key == "name" then Str(name)
      else Lookup(props, key)
    case _ => Undefined
  }

  /** `v[key]`, which throws a `TypeError` on `null` and `undefined`. */
  function GetProp(v: Value, key: string): (r: Thrown<Value>)
    ensures r.Throws? <==> Nullish(v)
    ensures r.Throws? ==> r.exception == TypeErrorValue
  {
    if Nullish(v) then Throws(TypeErrorValue) else Returned(Prop(v, key))
  }

  /** `parts.join(sep)`. */
  function Join(sep: string, parts: seq<string>): string {
    if |parts| == 0 then ""
    else if |parts| == 1 then parts[0]
    else parts[0] + sep + Join(sep, parts[1..])
  }

  predicate IsDigit(c: char) {
    '0' <= c <= '9'
  }

  function DigitChar(d: nat): (c: char)
    requires d < 10
    ensures IsDigit(c)
  {
    ('0' as int + d) as char
  }

  /** The decimal text of a natural number, without leading zeros. */
  function NatToString(n: nat): (r: string)
    ensures |r| > 0
    ensures forall i :: 0 <= i < |r| ==> IsDigit(r[i])
  {
    if n < 10 then [DigitChar(n)] else NatToString(n / 10) + [DigitChar(n % 10)]
  }

  /** `String(n)` for an integer `n` below 10^21 in magnitude; from 10^21 on
      JavaScript writes exponent notation, which this does not model. */
  function IntToString(n: int): (r: string)
    ensures |r| > 0
    ensures IsDigit(r[0]) || r[0] == '-'
  {
    if n < 0 then "-" + NatToString(-n) else NatToString(n)
  }

  /** JavaScript's ToString, as `JSON.parse` and string concatenation apply it.
      An array joins its elements with `,`, writing `null` and `undefined` as
      empty; a plain object is `[object Object]`; an error is
      `Error.prototype.toString`. */
  function ToJsString(v: Value): string
    decreases v, 1
  {
    match v
    case Undefined => "undefined"
    case Null => "null"
    case Bool(b) => if b then "true" else "false"
    case Num(n) => IntToString(n)
    case Str(s) => s
    case Arr(items) => Join(",", ElementStrings(items, v))
    case Obj(_) => "[object Object]"
    case ErrorObj(name, message, _) =>
      if name == "" then message
      else if message == "" then name
      else name + ": " + message
  }

  /** The array elements as `Array.prototype.join` writes them. */
  function ElementStrings(items: seq<Value>, ghost parent: Value): (r: seq<string>)
    requires forall i :: 0 <= i < |items| ==> items[i] < parent
    ensures |r| == |items|
    decreases parent, 0, |items|
  {
    if |items| == 0 then []
    else [if Nullish(items[0]) then "" else ToJsString(items[0])] + ElementStrings(items[1..], parent)
  }

  /** How many times `x` occurs in `s`. */
  function Count<T(==)>(x: T, s: seq<T>): nat {
    if |s| == 0 then 0 else (if s[0] == x then 1 else 0) + Count(x, s[1..])
  }

  lemma {:induction false} CountAppend<T>(x: T, a: seq<T>, b: seq<T>)
    ensures Count(x, a + b) == Count(x, a) + Count(x, b)
  {
    if |a| == 0 {
      assert a + b == b;
    } else {
      assert (a + b)[1..] == a[1..] + b;
      CountAppend(x, a[1..], b);
    }
  }

  lemma {:induction false} CountAbsent<T>(x: T, s: seq<T>)
    requires x !in s
    ensures Count(x, s) == 0
  {
    if |s| > 0 {
      assert s[0] != x;
      CountAbsent(x, s[1..]);
    }
  }
}

=== FILE: json.dfy ===
/** `JSON.stringify` over `Js.Value`, and the decoding of a JSON string literal
    (section 7 of RFC 8259) as the inverse of its escaping.

    `JSON.parse` itself stays abstract: the operations that call it take it as a
    partial function `string -> Option<Value>`. */
module Json {
  import opened Js

  predicate IsControl(c: char) {
    c as int < 0x20
  }

  /** The characters `JSON.stringify` must not write literally inside a string. */
  predicate NeedsEscape(c: char) {
    c == '"' || c == '\\' || IsControl(c)
  }

  /** A string `JSON.stringify` writes out unchanged between its quotes. */
  predicate Plain(s: string) {
    forall i :: 0 <= i < |s| ==> !NeedsEscape(s[i])
  }

  function HexDigit(d: nat): char
    requires d < 16
  {
    if d < 10 then ('0' as int + d) as char else ('a' as int + d - 10) as char
  }

  /** The escape `JSON.stringify` writes for one character of a string:
      the two-character escapes for quote, backslash, backspace, form feed,
      newline, carriage return and tab, `\u00xx` in lower-case hex for the
      other control characters, and the character itself otherwise. */
  function EscapeChar(c: char): (r: string)
    ensures |r| > 0
    ensures r == [c] <==> !NeedsEscape(c)
    ensures NeedsEscape(c) ==> |r| >= 2
    ensures forall i :: 0 <= i < |r| ==> !IsControl(r[i])
  {
    if c == '"' then "\\\""
    else if c == '\\' then "\\\\"
    else if c as int == 0x08 then "\\b"
    else if c as int == 0x0C then "\\f"
    else if c == '\n' then "\\n"
    else if c == '\r' then "\\r"
    else if c == '\t' then "\\t"
    else if IsControl(c) then "\\u00" + [HexDigit(c as int / 16), HexDigit(c as int % 16)]
    else [c]
  }

  /** The body of a JSON string literal for `s`: every character escaped. */
  function EscapeJson(s: string): (r: string)
    ensures |r| >= |s|
    ensures r == s <==> Plain(s)
    ensures forall i :: 0 <= i < |r| ==> !IsControl(r[i])
  {
    if |s| == 0 then ""
    else
      var head := EscapeChar(s[0]);
      var tail := EscapeJson(s[1..]);
      assert forall i :: |head| <= i < |head + tail| ==> (head + tail)[i] == tail[i - |head|];
      assert Plain(s) <==> !NeedsEscape(s[0]) && Plain(s[1..]) by {
        if !NeedsEscape(s[0]) && Plain(s[1..]) {
          forall i | 0 <= i < |s| ensures !NeedsEscape(s[i]) {
            if i > 0 { assert s[i] == s[1..][i - 1]; }
          }
        }
      }
      assert head + tail == s ==> head == [s[0]] && tail == s[1..] by {
        if head + tail == s && head == [s[0]] {
          assert tail == (head + tail)[1..];
        }
      }
      head + tail
  }

  /** The JSON string literal for `s`. */
  function Quote(s: string): string {
    "\"" + EscapeJson(s) + "\""
  }

  /** `JSON.stringify(v)`: `None` is the `undefined` it returns for
      `undefined`. An error object serialises its enumerable properties only. */
  function Stringify(v: Value): (r: Option<string>)
    ensures r.None? <==> v.Undefined?
    ensures r.Some? ==> |r.value| > 0 && (r.value[0] == '"' <==> v.Str?)
    decreases v, 1
  {
    match v
    case Undefined => None
    case Null => Some("null")
    case Bool(b) => Some(if b then "true" else "false")
    case Num(n) => Some(IntToString(n))
    case Str(s) => Some(Quote(s))
    case Arr(items) => Some("[" + Join(",", ItemTexts(items, v)) + "]")
    case Obj(fields) => Some("{" + Join(",", MemberTexts(fields, v)) + "}")
    case ErrorObj(_, _, props) => Some("{" + Join(",", MemberTexts(props, v)) + "}")
  }

  /** The elements of an array literal; a value without text is written `null`. */
  function ItemTexts(items: seq<Value>, ghost parent: Value): (r: seq<string>)
    requires forall i :: 0 <= i < |items| ==> items[i] < parent
    ensures |r| == |items|
    decreases parent, 0, |items|
  {
    if |items| == 0 then []
    else [Stringify(items[0]).GetOr("null")] + ItemTexts(items[1..], parent)
  }

  /** The `"key":value` members of an object literal, in order; a property
      whose value serialises to nothing (an `undefined` one) is skipped. */
  function MemberTexts(fields: seq<Field>, ghost parent: Value): (r: seq<string>)
    requires forall i :: 0 <= i < |fields| ==> fields[i].val < parent
    ensures |r| <= |fields|
    decreases parent, 0, |fields|
  {
    if |fields| == 0 then []
    else
      var rest := MemberTexts(fields[1..], parent);
      match Stringify(fields[0].val)
      case None => rest
      case Some(t) => [Quote(fields[0].key) + ":" + t] + rest
  }

  /** The text of a two-property object literal whose second value is
      `undefined`: the second member disappears. */
  lemma StringifyFieldAndUndefined(k1: string, v1: Value, k2: string)
    requires v1 != Undefined
    ensures Stringify(Obj([Field(k1, v1), Field(k2, Undefined)])) ==
      Some("{" + (Quote(k1) + ":" + Stringify(v1).value) + "}")
  {
    var fields := [Field(k1, v1), Field(k2, Undefined)];
    var v := Obj(fields);
    var first := Quote(k1) + ":" + Stringify(v1).value;
    assert fields[1..] == [Field(k2, Undefined)];
    assert fields[1..][1..] == [];
    assert MemberTexts(fields, v) == [first];
  }

  /** The text of a two-property object literal, the shape of every response
      envelope. */
  lemma StringifyTwoFields(k1: string, v1: Value, k2: string, v2: Value)
    requires v1 != Undefined && v2 != Undefined
    ensures Stringify(Obj([Field(k1, v1), Field(k2, v2)])) ==
      Some("{" + ((Quote(k1) + ":" + Stringify(v1).value) + "," + (Quote(k2) + ":" + Stringify(v2).value)) + "}")
  {
    var fields := [Field(k1, v1), Field(k2, v2)];
    var v := Obj(fields);
    var first := Quote(k1) + ":" + Stringify(v1).value;
    var second := Quote(k2) + ":" + Stringify(v2).value;
    assert fields[0].val == v1 && fields[1].val == v2;
    TwoMemberTexts(k1, v1, k2, v2, v);
    JoinTwo(",", first, second);
  }

  lemma TwoMemberTexts(k1: string, v1: Value, k2: string, v2: Value, parent: Value)
    requires v1 < parent && v2 < parent
    requires v1 != Undefined && v2 != Undefined
    ensures MemberTexts([Field(k1, v1), Field(k2, v2)], parent)
         == [Quote(k1) + ":" + Stringify(v1).value, Quote(k2) + ":" + Stringify(v2).value]
  {
    var fields := [Field(k1, v1), Field(k2, v2)];
    assert fields[1..] == [Field(k2, v2)];
    assert fields[1..][1..] == [];
  }

  lemma JoinTwo(sep: string, a: string, b: string)
    ensures Join(sep, [a, b]) == a + sep + b
  {
    assert [a, b][1..] == [b];
  }

  // Decoding a string literal's body.

  function HexValue(c: char): (r: Option<nat>)
    ensures r.Some? ==> r.value < 16
  {
    if '0' <= c <= '9' then Some(c as int - '0' as int)
    else if 'a' <= c <= 'f' then Some(c as int - 'a' as int + 10)
    else if 'A' <= c <= 'F' then Some(c as int - 'A' as int + 10)
    else None
  }

  /** The code unit named by the four hex digits of a `\uXXXX` escape. */
  function HexQuad(t: string): (r: Option<nat>)
    requires |t| == 4
    ensures r.Some? ==> r.value < 0x10000
  {
    match (HexValue(t[0]), HexValue(t[1]), HexValue(t[2]), HexValue(t[3]))
    case (Some(a), Some(b), Some(c), Some(d)) => Some(((a * 16 + b) * 16 + c) * 16 + d)
    case _ => None
  }

  /** The character a two-character escape `\e` stands for. */
  function SimpleUnescape(e: char): Option<char> {
    if e == '"' then Some('"')
    else if e == '\\' then Some('\\')
    else if e == '/' then Some('/')
    else if e == 'b' then Some(0x08 as char)
    else if e == 'f' then Some(0x0C as char)
    else if e == 'n' then Some('\n')
    else if e == 'r' then Some('\r')
    else if e == 't' then Some('\t')
    else None
  }

  function Prepend(c: char, rest: Option<string>): Option<string> {
    match rest
    case None => None
    case Some(s) => Some([c] + s)
  }

  /** What a JSON parser reads from the body of a string literal; `None` for a
      body that is not valid JSON (a raw quote or control character, or an
      unknown escape). Escapes of surrogate halves are refused rather than
      paired. */
  function Unescape(t: string): Option<string>
    decreases |t|
  {
    if |t| == 0 then Some("")
    else if t[0] == '\\' then
      if |t| >= 2 && SimpleUnescape(t[1]).Some? then
        Prepend(SimpleUnescape(t[1]).value, Unescape(t[2..]))
      else if |t| >= 6 && t[1] == 'u' && HexQuad(t[2..6]).Some?
              && !(0xD800 <= HexQuad(t[2..6]).value < 0xE000) then
        Prepend(HexQuad(t[2..6]).value as char, Unescape(t[6..]))
      else None
    else if t[0] == '"' || IsControl(t[0]) then None
    else Prepend(t[0], Unescape(t[1..]))
  }

  lemma HexDigitValue(d: nat)
    requires d < 16
    ensures HexValue(HexDigit(d)) == Some(d)
  {
  }

  /** Decoding one escaped character and then the rest. */
  lemma UnescapeEscapeChar(c: char, rest: string)
    ensures Unescape(EscapeChar(c) + rest) == Prepend(c, Unescape(rest))
  {
    if c == '"' {
      UnescapeTwo('"', c, rest);
    } else if c == '\\' {
      UnescapeTwo('\\', c, rest);
    } else if c as int == 0x08 {
      UnescapeTwo('b', c, rest);
    } else if c as int == 0x0C {
      UnescapeTwo('f', c, rest);
    } else if c == '\n' {
      UnescapeTwo('n', c, rest);
    } else if c == '\r' {
      UnescapeTwo('r', c, rest);
    } else if c == '\t' {
      UnescapeTwo('t', c, rest);
    } else if IsControl(c) {
      UnescapeControl(c, rest);
    } else {
      var t := EscapeChar(c) + rest;
      assert t[0] == c && t[1..] == rest;
    }
  }

  /** A two-character escape `\e` followed by the rest. */
  lemma UnescapeTwo(e: char, c: char, rest: string)
    requires SimpleUnescape(e) == Some(c)
    requires EscapeChar(c) == ['\\', e]
    ensures Unescape(EscapeChar(c) + rest) == Prepend(c, Unescape(rest))
  {
    var t := EscapeChar(c) + rest;
    assert t[0] == '\\' && t[1] == e;
    assert t[2..] == rest;
  }

  /** A `\u00xx` escape followed by the rest. */
  lemma UnescapeControl(c: char, rest: string)
    requires IsControl(c) && c != '"' && c != '\\'
    requires c as int != 0x08 && c as int != 0x0C && c != '\n' && c != '\r' && c != '\t'
    ensures Unescape(EscapeChar(c) + rest) == Prepend(c, Unescape(rest))
  {
    var t := EscapeChar(c) + rest;
    var hi, lo := c as int / 16, c as int % 16;
    assert t[0] == '\\' && |t| >= 6 && t[1] == 'u';
    assert t[2..6] == ['0', '0', HexDigit(hi), HexDigit(lo)];
    HexQuadOfByte(hi, lo);
    assert hi * 16 + lo == c as int;
    assert t[6..] == rest;
  }

  lemma HexQuadOfByte(hi: nat, lo: nat)
    requires hi < 16 && lo < 16
    ensures HexQuad(['0', '0', HexDigit(hi), HexDigit(lo)]) == Some(hi * 16 + lo)
  {
    HexDigitValue(hi);
    HexDigitValue(lo);
    HexDigitValue(0);
  }

  /** Escaping loses nothing: a JSON parser reads back exactly the string
      `JSON.stringify` escaped. */
  lemma {:induction false} UnescapeEscape(s: string)
    ensures Unescape(EscapeJson(s)) == Some(s)
  {
    if |s| > 0 {
      UnescapeEscape(s[1..]);
      UnescapeEscapeChar(s[0], EscapeJson(s[1..]));
      assert [s[0]] + s[1..] == s;
    }
  }
}

=== FILE: messages.dfy ===
/** The JSON envelopes the routes and the error handler send
    (lib/messages.js): `{"code":1,"result":...}` for a success (`{"code":1}`
    when the result is `undefined`), `{"code":0,"message":"..."}` for a
    failure, and the normalisation of errors from the remote build service. */
module Messages {
  import opened Js
  import opened Json

  /** The `message` text of a failure envelope for `error`: its JSON text,
      minus the surrounding quotes when that text is a string literal. `None`
      when `JSON.stringify` yields no text at all (for `undefined`). */
  function MessageText(error: Value): (m: Option<string>)
    ensures m.None? <==> error.Undefined?
    ensures error.Str? ==> m == Some(EscapeJson(error.s))
    ensures !error.Str? && m.Some? ==> m == Stringify(error) && m.value[0] != '"'
  {
    match Stringify(error)
    case None => None
    case Some(msg) =>
      if msg[0] == '"' then
        assert error.Str? && msg == Quote(error.s);
        Some(msg[1..|msg| - 1])
      else Some(msg)
  }

  /** The text of `{"code": code, key: value}` as `JSON.stringify` writes
      it, given the text of the value. */
  function Envelope(code: nat, key: string, valueText: string): string {
    "{" + ((Quote("code") + ":" + IntToString(code)) + "," + (Quote(key) + ":" + valueText)) + "}"
  }

  /** `messages.error(error)`: the serialisation of `{code: 0, message: m}`
      with `m` the message text. For `undefined` the stringified text is not
      a string and reading its `indexOf` throws. */
  function ErrorMessage(error: Value): (r: Thrown<string>)
    ensures r.Throws? <==> error.Undefined?
    ensures r.Returned? ==> r.value == Envelope(0, "message", Quote(MessageText(error).value))
  {
    match MessageText(error)
    case None => Throws(TypeErrorValue)
    case Some(m) =>
      StringifyTwoFields("code", Num(0), "message", Str(m));
      Returned(Stringify(Obj([Field("code", Num(0)), Field("message", Str(m))])).value)
  }

  /** `messages.success(data)`: the serialisation of `{code: 1, result: data}`,
      which omits `result` when `data` is `undefined`. */
  function SuccessMessage(data: Value): (r: string)
    ensures data.Undefined? ==> r == "{" + (Quote("code") + ":" + IntToString(1)) + "}"
    ensures !data.Undefined? ==> r == Envelope(1, "result", Stringify(data).value)
  {
    if data.Undefined? then
      StringifyFieldAndUndefined("code", Num(1), "result");
      Stringify(Obj([Field("code", Num(1)), Field("result", data)])).value
    else
      StringifyTwoFields("code", Num(1), "result", data);
      Stringify(Obj([Field("code", Num(1)), Field("result", data)])).value
  }

  lemma QuoteCode()
    ensures Quote("code") == "\"code\""
  {
    assert Plain("code");
  }

  /** The envelopes written out as text. */
  lemma EnvelopeLiteral(code: nat, key: string, valueText: string)
    requires code < 10 && Plain(key)
    ensures Envelope(code, key, valueText) == "{\"code\":" + [DigitChar(code)] + ",\"" + key + "\":" + valueText + "}"
  {
    QuoteCode();
    assert Quote(key) == "\"" + key + "\"";
    assert IntToString(code) == [DigitChar(code)];
    EnvelopeShape(key, DigitChar(code), valueText);
  }

  lemma EnvelopeShape(key: string, digit: char, valueText: string)
    ensures "{" + (("\"code\"" + ":" + [digit]) + "," + (("\"" + key + "\"") + ":" + valueText)) + "}"
         == "{\"code\":" + [digit] + ",\"" + key + "\":" + valueText + "}"
  {
  }

  /** A string with nothing to escape is carried over verbatim as the message. */
  lemma MessageOfPlainString(s: string)
    requires Plain(s)
    ensures MessageText(Str(s)) == Some(s)
    ensures ErrorMessage(Str(s)) == Returned("{\"code\":0,\"message\":" + ("\"" + s + "\"") + "}")
  {
    assert Plain("message");
    assert Quote(s) == "\"" + s + "\"";
    EnvelopeLiteral(0, "message", Quote(s));
    PlainMessageShape("\"" + s + "\"");
  }

  lemma PlainMessageShape(text: string)
    ensures "{\"code\":" + ['0'] + ",\"" + "message" + "\":" + text + "}" == "{\"code\":0,\"message\":" + text + "}"
  {
  }

  /** A string that needs escaping is escaped twice on its way out: a client
      parsing the envelope reads the once-escaped text, not the original. */
  lemma MessageOfEscapedString(s: string)
    requires !Plain(s)
    ensures MessageText(Str(s)) != Some(s)
    ensures Unescape(EscapeJson(MessageText(Str(s)).value)) == Some(EscapeJson(s))
  {
    UnescapeEscape(EscapeJson(s));
  }

  /** A success envelope and a failure envelope never coincide: the
      character after `{"code":` is `1` in one and `0` in the other. */
  lemma SuccessIsNotError(data: Value, error: Value)
    ensures ErrorMessage(error) != Returned(SuccessMessage(data))
  {
    QuoteCode();
    assert IntToString(1) == "1" && IntToString(0) == "0";
    var s := SuccessMessage(data);
    if data.Undefined? {
      CodeAt8Short("\"code\"", "1");
    } else {
      CodeAt8("\"code\"", "1", Quote("result") + ":" + Stringify(data).value);
    }
    assert s[8] == '1';
    if ErrorMessage(error).Returned? {
      CodeAt8("\"code\"", "0", Quote("message") + ":" + Quote(MessageText(error).value));
      assert ErrorMessage(error).value[8] == '0';
    }
  }

  lemma CodeAt8(q: string, digits: string, rest: string)
    requires |q| == 6 && |digits| > 0
    ensures ("{" + ((q + ":" + digits) + "," + rest) + "}")[8] == digits[0]
  {
  }

  lemma CodeAt8Short(q: string, digits: string)
    requires |q| == 6 && |digits| > 0
    ensures ("{" + (q + ":" + digits) + "}")[8] == digits[0]
  {
  }

  /** What `convertPhonegapError` works on: `error.message` when that is
      truthy, `error` itself otherwise. */
  function Subject(error: Value): Value
    requires !Nullish(error)
  {
    var m := Prop(error, "message");
    if Truthy(m) then m else error
  }

  /** `messages.convertPhonegapError(error)`, with `JSON.parse` as `parse`.
      Reading `.message` of `null` or `undefined` throws. When the subject
      parses, the result is the parsed value's `error` property; reading that
      on a parsed `null` throws inside the `try` and falls back, like a parse
      failure, to the subject unchanged. */
  function ConvertPhonegapError(error: Value, parse: string -> Option<Value>): (r: Thrown<Value>)
    ensures r.Throws? <==> Nullish(error)
    ensures !Nullish(error) && parse(ToJsString(Subject(error))).None? ==> r == Returned(Subject(error))
    ensures !Nullish(error) && parse(ToJsString(Subject(error))).Some? ==>
      var p := parse(ToJsString(Subject(error))).value;
      r == Returned(if Nullish(p) then Subject(error) else Prop(p, "error"))
  {
    match GetProp(error, "message")
    case Throws(x) => Throws(x)
    case Returned(message) =>
      var err := if Truthy(message) then message else error;
      match parse(ToJsString(err))
      case None => Returned(err)
      case Some(parsed) =>
        match GetProp(parsed, "error")
        case Throws(_) => Returned(err)
        case Returned(e) => Returned(e)
  }

  /** The remote service's usual failure: an `Error` whose message is a JSON
      document; the result is that document's `error` member. */
  lemma ConvertServiceError(name: string, text: string, props: seq<Field>, body: seq<Field>,
                            parse: string -> Option<Value>)
    requires text != ""
    requires parse(text) == Some(Obj(body))
    ensures ConvertPhonegapError(ErrorObj(name, text, props), parse) == Returned(Lookup(body, "error"))
  {
  }

  /** A plain string that is not JSON comes back unchanged. */
  lemma ConvertPlainString(s: string, parse: string -> Option<Value>)
    requires parse(s).None?
    ensures ConvertPhonegapError(Str(s), parse) == Returned(Str(s))
  {
  }
}

=== FILE: mongo.dfy ===
/** The project store (lib/mongo.js): one document per `(user, project)`,
    read with `findProject` and replaced or inserted with `saveProject`, and
    the two lazily created handles the module caches, `connection` (the
    database) and `pgpc` (the `phonegap_projects` collection).

    The database is abstract: the collection is a map from the key to the
    stored `data`, and every driver callback is an event or an outcome
    parameter. */
module Mongo {
  import opened Js

  /** The query both operations address a record by. */
  datatype Key = Key(user: Value, project: Value)

  /** A stored document `{user, project, data}`. */
  datatype Doc = Doc(user: Value, project: Value, data: Value)

  type Store = map<Key, Value>

  /** `findOne({user, project})` on the collection. */
  function Find(store: Store, user: Value, project: Value): (r: Option<Doc>)
    ensures r.Some? <==> Key(user, project) in store
    ensures r.Some? ==> r.value.user == user && r.value.project == project
    ensures r.Some? ==> r.value.data == store[Key(user, project)]
  {
    var k := Key(user, project);
    if k in store then Some(Doc(user, project, store[k])) else None
  }

  /** `update({user, project}, {user, project, data}, {upsert: true})`:
      replaces the record with that key or inserts it; every other record is
      left as it was. */
  function Save(store: Store, user: Value, project: Value, data: Value): (r: Store)
    ensures Find(r, user, project) == Some(Doc(user, project, data))
    ensures forall k :: k != Key(user, project) ==> (k in r <==> k in store)
    ensures forall k :: k in store && k != Key(user, project) ==> r[k] == store[k]
  {
    store[Key(user, project) := data]
  }

  /** A save only touches its own key: a find on any other key sees the store
      as it was. */
  lemma SaveFindOther(store: Store, user: Value, project: Value, data: Value, user2: Value, project2: Value)
    requires Key(user2, project2) != Key(user, project)
    ensures Find(Save(store, user, project, data), user2, project2) == Find(store, user2, project2)
  {
  }

  /** Saving the same document twice leaves the store as saving it once. */
  lemma SaveIdempotent(store: Store, user: Value, project: Value, data: Value)
    ensures Save(Save(store, user, project, data), user, project, data) == Save(store, user, project, data)
  {
  }

  /** A later save replaces an earlier one on the same key. */
  lemma SaveOverwrites(store: Store, user: Value, project: Value, d1: Value, d2: Value)
    ensures Save(Save(store, user, project, d1), user, project, d2) == Save(store, user, project, d2)
  {
  }

  /** `findProject(user, project)`, given how the collection promise settles
      and whether `findOne` itself fails. A rejected collection rejects the
      lookup; a failed `findOne` is logged and swallowed, and the lookup
      resolves to nothing, exactly as for a missing record. */
  function FindProject(collection: Settlement<()>, store: Store, user: Value, project: Value,
                       findOneFails: bool): (r: Settlement<Option<Doc>>)
    ensures collection.Resolved? ==> r.Resolved?
    ensures collection.Resolved? && !findOneFails ==> r == Resolved(Find(store, user, project))
    ensures findOneFails && r.Resolved? ==> r.value.None?
    ensures collection.Rejected? ==> r == Rejected(collection.reason)
    ensures collection.Unsettled? ==> r.Unsettled?
  {
    match collection
    case Resolved(_) => if findOneFails then Resolved(None) else Resolved(Find(store, user, project))
    case Rejected(e) => Rejected(e)
    case Unsettled => Unsettled
  }

  /** The promise `saveProject` returns, and the store after it. */
  datatype SaveRun = SaveRun(result: Settlement<()>, store: Store)

  /** `saveProject(user, project, data)`, given how the collection promise
      settles and the error `update` reports, if any. */
  function SaveProject(collection: Settlement<()>, store: Store, user: Value, project: Value, data: Value,
                       updateError: Option<Value>): (r: SaveRun)
    ensures r.result.Resolved? <==> collection.Resolved? && updateError.None?
    ensures r.result.Resolved? ==> r.store == Save(store, user, project, data)
    ensures !r.result.Resolved? ==> r.store == store
    ensures collection.Resolved? && updateError.Some? ==> r.result == Rejected(updateError.value)
  {
    match collection
    case Resolved(_) =>
      (match updateError
       case None => SaveRun(Resolved(()), Save(store, user, project, data))
       case Some(e) => SaveRun(Rejected(e), store))
    case Rejected(e) => SaveRun(Rejected(e), store)
    case Unsettled => SaveRun(Unsettled, store)
  }

  /** A successful save is what a later lookup finds. */
  lemma FindAfterSaveProject(store: Store, user: Value, project: Value, data: Value)
    ensures var s := SaveProject(Resolved(()), store, user, project, data, None);
      FindProject(Resolved(()), s.store, user, project, false) == Resolved(Some(Doc(user, project, data)))
  {
  }

  // The cached handles.

  /** The `connection` variable: null, the promise of the pending connect
      `connect`, or the promise of an open database. */
  datatype Conn = NoConnection | Connecting(connect: nat) | Open

  /** How far the promise behind a `pgpc` value has got. */
  datatype CollStatus = AwaitingDb | Ready | Failed(err: Value)

  /** A `pgpc` value: the promise with identity `id`. */
  datatype Coll = Coll(id: nat, status: CollStatus)

  /** The module state. `waitingOn` maps every collection promise whose
      `getDBConnection().then` callback has not yet run to the connect it
      waits for; such a promise may already have left `pgpc`. `nextId` and
      `nextConnect` name the next collection promise and the next
      `MongoClient.connect`. */
  datatype Cache = Cache(connection: Conn, pgpc: Option<Coll>, waitingOn: map<nat, nat>,
                         nextId: nat, nextConnect: nat)

  const Initial: Cache := Cache(NoConnection, None, map[], 0, 0)

  /** What happens to the module: a call of `phonegapProjectsCollection`
      (from `findProject` or `saveProject`), the outcome of the connect
      `connect`, and a `close` event of a database opened earlier. The error
      a `db.collection` callback reports, if any, travels with the event that
      leads to the call. */
  datatype Event =
    | Request(collectionError: Option<Value>)
    | ConnectSucceeded(connect: nat, collectionError: Option<Value>)
    | ConnectFailed(connect: nat)
    | Closed

  /** What the module does in response: start a connect, hand the promise
      `id` to the caller, ask the database for the collection, and settle
      the promise `id` with the collection or with an error. */
  datatype Effect =
    | ConnectRequested
    | Handed(id: nat)
    | CollectionRequested
    | CollectionSettled(id: nat, error: Option<Value>)

  datatype Step = Step(cache: Cache, effects: seq<Effect>)

  function Settle(err: Option<Value>): CollStatus {
    if err.Some? then Failed(err.value) else Ready
  }

  /** The collection promises below `n` that wait for the connect `k`, in
      creation order, which is the order their callbacks were attached. */
  function WaitersOf(waitingOn: map<nat, nat>, k: nat, n: nat): (r: seq<nat>)
    ensures forall w :: w in r <==> w < n && w in waitingOn && waitingOn[w] == k
    ensures forall i, j :: 0 <= i < j < |r| ==> r[i] < r[j]
  {
    if n == 0 then []
    else
      var earlier := WaitersOf(waitingOn, k, n - 1);
      assert forall i :: 0 <= i < |earlier| ==> earlier[i] in earlier;
      if n - 1 in waitingOn && waitingOn[n - 1] == k then earlier + [n - 1] else earlier
  }

  /** The `then` callbacks of the waiting promises, run in order once the
      database is open: each asks for the collection and settles its promise. */
  function SettleAll(waiters: seq<nat>, err: Option<Value>): (r: seq<Effect>)
    ensures |r| == 2 * |waiters|
    ensures forall f :: f in r ==> f == CollectionRequested || (f.CollectionSettled? && f.id in waiters && f.error == err)
    ensures forall w :: w in waiters ==> CollectionSettled(w, err) in r
  {
    if |waiters| == 0 then []
    else
      var rest := SettleAll(waiters[1..], err);
      assert forall w :: w in waiters[1..] ==> w in waiters;
      [CollectionRequested, CollectionSettled(waiters[0], err)] + rest
  }

  /** `waitingOn` without the promises waiting for `k`. */
  function Release(waitingOn: map<nat, nat>, k: nat): (r: map<nat, nat>)
    ensures forall w :: w in r <==> w in waitingOn && waitingOn[w] != k
    ensures forall w :: w in r ==> r[w] == waitingOn[w]
  {
    map w | w in waitingOn && waitingOn[w] != k :: waitingOn[w]
  }

  /** One event. A request with `pgpc` set returns it as it is; otherwise it
      creates a new collection promise and asks `getDBConnection` for the
      database, which returns the cached `connection` when there is one and
      otherwise starts a connect. A connect that succeeds runs the callbacks
      of every promise waiting for it, whether or not that promise is still
      cached, and marks `connection` open if it still holds that connect. A
      connect that fails sets both handles to null, whatever they hold, and
      never settles the promises waiting on it, because nothing handles the
      rejection. A close sets both handles to null, whatever they hold. An
      outcome of a connect nobody waits for changes nothing. */
  function Next(c: Cache, e: Event): (r: Step)
    ensures r.cache.nextId >= c.nextId && r.cache.nextConnect >= c.nextConnect
    ensures e.Request? ==> r.cache.pgpc.Some? && Handed(r.cache.pgpc.value.id) in r.effects
    ensures e.Request? && c.pgpc.Some? ==> r == Step(c, [Handed(c.pgpc.value.id)])
    ensures ConnectRequested in r.effects ==> c.connection.NoConnection?
    ensures e.ConnectFailed? && e.connect in c.waitingOn.Values ==> r.cache.connection.NoConnection? && r.cache.pgpc.None?
    ensures e.Closed? ==> r.cache.connection.NoConnection? && r.cache.pgpc.None?
    ensures forall w, err :: CollectionSettled(w, err) in r.effects ==>
      (e.Request? && w == c.nextId) || (e.ConnectSucceeded? && w in c.waitingOn && c.waitingOn[w] == e.connect)
  {
    match e
    case Request(err) =>
      if c.pgpc.Some? then Step(c, [Handed(c.pgpc.value.id)])
      else
        var id := c.nextId;
        (match c.connection
         case NoConnection =>
           var k := c.nextConnect;
           Step(Cache(Connecting(k), Some(Coll(id, AwaitingDb)), c.waitingOn[id := k], id + 1, k + 1),
                [ConnectRequested, Handed(id)])
         case Connecting(k) =>
           Step(Cache(c.connection, Some(Coll(id, AwaitingDb)), c.waitingOn[id := k], id + 1, c.nextConnect),
                [Handed(id)])
         case Open =>
           Step(Cache(Open, Some(Coll(id, Settle(err))), c.waitingOn, id + 1, c.nextConnect),
                [Handed(id), CollectionRequested, CollectionSettled(id, err)]))
    case ConnectSucceeded(k, err) =>
      var connection := if c.connection == Connecting(k) then Open else c.connection;
      var pgpc := if c.pgpc.Some? && c.pgpc.value.id in c.waitingOn && c.waitingOn[c.pgpc.value.id] == k
                  then Some(Coll(c.pgpc.value.id, Settle(err))) else c.pgpc;
      Step(Cache(connection, pgpc, Release(c.waitingOn, k), c.nextId, c.nextConnect),
           SettleAll(WaitersOf(c.waitingOn, k, c.nextId), err))
    case ConnectFailed(k) =>
      if k in c.waitingOn.Values
      then Step(Cache(NoConnection, None, Release(c.waitingOn, k), c.nextId, c.nextConnect), [])
      else Step(c, [])
    case Closed =>
      Step(Cache(NoConnection, None, c.waitingOn, c.nextId, c.nextConnect), [])
  }

  /** A sequence of events, one after the other, with all their effects. */
  function Run(c: Cache, events: seq<Event>): Step
    decreases |events|
  {
    if |events| == 0 then Step(c, [])
    else
      var first := Next(c, events[0]);
      var rest := Run(first.cache, events[1..]);
      Step(rest.cache, first.effects + rest.effects)
  }

  /** The states the module can reach: the two handles are null together; a
      pending `connection` goes with a cached promise waiting for exactly
      that connect; the cached promise is waiting exactly when its status
      says so, and then `connection` is pending; every promise and connect
      named is one already created. */
  ghost predicate Reachable(c: Cache) {
    && (c.connection.NoConnection? <==> c.pgpc.None?)
    && (c.connection.Connecting? ==>
          c.pgpc.Some? && c.pgpc.value.id in c.waitingOn && c.waitingOn[c.pgpc.value.id] == c.connection.connect)
    && (c.pgpc.Some? ==> (c.pgpc.value.status.AwaitingDb? <==> c.pgpc.value.id in c.waitingOn))
    && (c.pgpc.Some? && c.pgpc.value.status.AwaitingDb? ==> c.connection.Connecting?)
    && (c.pgpc.Some? ==> c.pgpc.value.id < c.nextId)
    && (forall w :: w in c.waitingOn ==> w < c.nextId && c.waitingOn[w] < c.nextConnect)
  }

  lemma NextReachable(c: Cache, e: Event)
    requires Reachable(c)
    ensures Reachable(Next(c, e).cache)
  {
  }

  /** Every state reached from the start satisfies `Reachable`. In
      particular `connection` is never set while `pgpc` is null, so the
      branch of `getDBConnection` that returns a cached connection is never
      taken: a request that finds `pgpc` null always starts a connect. */
  lemma {:induction false} RunReachable(c: Cache, events: seq<Event>)
    requires Reachable(c)
    ensures Reachable(Run(c, events).cache)
    decreases |events|
  {
    if |events| > 0 {
      NextReachable(c, events[0]);
      RunReachable(Next(c, events[0]).cache, events[1..]);
    }
  }

  lemma ConnectOnlyWhenBothNull(c: Cache, e: Event)
    requires Reachable(c)
    ensures c.pgpc.None? ==> c.connection.NoConnection?
    ensures e.Request? && c.pgpc.None? ==> ConnectRequested in Next(c, e).effects
    ensures ConnectRequested in Next(c, e).effects ==> c.pgpc.None?
  {
  }

  /** A collection promise that failed stays cached, and is what every
      request gets, until a close or a failed connect: no new connect is
      started in between. Late callbacks of connects the cache has dropped
      may still settle their own promises. */
  lemma {:induction false} FailedCollectionStaysCached(c: Cache, events: seq<Event>)
    requires Reachable(c)
    requires c.pgpc.Some? && c.pgpc.value.status.Failed?
    requires forall i :: 0 <= i < |events| ==> !events[i].Closed? && !events[i].ConnectFailed?
    ensures Run(c, events).cache.pgpc == c.pgpc
    ensures Run(c, events).cache.connection == c.connection
    ensures forall f :: f in Run(c, events).effects && f.Handed? ==> f == Handed(c.pgpc.value.id)
    ensures ConnectRequested !in Run(c, events).effects
    decreases |events|
  {
    if |events| > 0 {
      assert !events[0].Closed? && !events[0].ConnectFailed?;
      var first := Next(c, events[0]);
      assert first.cache.pgpc == c.pgpc && first.cache.connection == c.connection;
      assert forall f :: f in first.effects && f.Handed? ==> f == Handed(c.pgpc.value.id);
      NextReachable(c, events[0]);
      FailedCollectionStaysCached(first.cache, events[1..]);
    }
  }

  /** A collection promise is settled at most once: one that was created
      before and is no longer waiting for any connect is never settled by a
      later event. */
  lemma {:induction false} NoLateSettlement(c: Cache, events: seq<Event>, id: nat)
    requires id < c.nextId && id !in c.waitingOn
    ensures forall err :: CollectionSettled(id, err) !in Run(c, events).effects
    decreases |events|
  {
    if |events| > 0 {
      var first := Next(c, events[0]);
      assert id !in first.cache.waitingOn;
      NoLateSettlement(first.cache, events[1..], id);
      assert forall err :: CollectionSettled(id, err) !in first.effects;
    }
  }

  /** The callers waiting for a connect that fails are never answered. */
  lemma StrandedAfterConnectFailure(c: Cache, k: nat, w: nat, events: seq<Event>)
    requires Reachable(c) && w in c.waitingOn && c.waitingOn[w] == k
    ensures forall err :: CollectionSettled(w, err) !in Run(c, [ConnectFailed(k)] + events).effects
  {
    assert k in c.waitingOn.Values;
    var after := Next(c, ConnectFailed(k)).cache;
    NoLateSettlement(after, events, w);
    assert ([ConnectFailed(k)] + events)[1..] == events;
  }

  /** A close during a pending connect drops the connection and the waiting
      promise from the cache, but not the connect: when it succeeds, the
      dropped promise is still settled, and the next request starts yet
      another connect. */
  lemma DroppedPromiseSettles()
    ensures var r := Run(Initial, [Request(None), ConnectSucceeded(0, None), Closed,
                                   Request(None), Closed, ConnectSucceeded(1, None)]);
      && r.cache.connection.NoConnection? && r.cache.pgpc.None?
      && CollectionSettled(1, None) in r.effects
      && ConnectRequested in Next(r.cache, Request(None)).effects
  {
  }
}

=== FILE: queue.dfy ===
/** The message-broker client (lib/queue.js): `start` opens the connection,
    and on its first `ready` declares the task queue (whose consumer
    acknowledges every delivery) and the exchange that `publishTask` publishes
    to. The broker is abstract: its callbacks are events, and what the module
    asks of it are effects. */
module Queue {
  import opened Js

  /** The arguments of `publishTask(user, project, key, type)`. */
  datatype Task = Task(kind: Value, user: Value, project: Value, key: Value)

  /** The message object `publishTask` builds: `{type, user, project, key}`. */
  function Body(t: Task): (r: Value)
    ensures r.Obj? && |r.fields| == 4
  {
    Obj([Field("type", t.kind), Field("user", t.user), Field("project", t.project), Field("key", t.key)])
  }

  /** The message object has exactly the four members `type`, `user`,
      `project` and `key`, in that order, holding the task's values. */
  lemma BodyMembers(t: Task)
    ensures forall i :: 0 <= i < 4 ==> Body(t).fields[i].key == ["type", "user", "project", "key"][i]
    ensures Body(t).fields[0].val == t.kind && Body(t).fields[1].val == t.user
    ensures Body(t).fields[2].val == t.project && Body(t).fields[3].val == t.key
  {
  }

  /** What a consumer reads back from a message object. */
  function TaskOf(body: Value): Option<Task> {
    if body.Obj? then
      Some(Task(Lookup(body.fields, "type"), Lookup(body.fields, "user"),
                Lookup(body.fields, "project"), Lookup(body.fields, "key")))
    else None
  }

  /** The message carries exactly the four arguments, each under its own name. */
  lemma TaskOfBody(t: Task)
    ensures TaskOf(Body(t)) == Some(t)
  {
    var f := Body(t).fields;
    assert "type"[0] != "user"[0] && "type"[0] != "project"[0] && "type"[0] != "key"[0];
    assert "user"[0] != "project"[0] && "user"[0] != "key"[0] && "project"[0] != "key"[0];
    assert f[1..] == [Field("user", t.user), Field("project", t.project), Field("key", t.key)];
    assert f[1..][1..] == [Field("project", t.project), Field("key", t.key)];
    assert f[1..][1..][1..] == [Field("key", t.key)];
    assert Lookup(f, "user") == Lookup(f[1..], "user") == t.user;
    assert Lookup(f, "project") == Lookup(f[1..], "project") == Lookup(f[1..][1..], "project") == t.project;
    assert Lookup(f[1..][1..], "key") == Lookup(f[1..][1..][1..], "key") == t.key;
    assert Lookup(f, "key") == Lookup(f[1..], "key") == t.key;
  }

  /** `ex.publish(routingKey, body, {contentType})`. */
  datatype Publication = Publication(routingKey: string, body: Value, contentType: string)

  function Publish(t: Task): (p: Publication)
    ensures p.routingKey == "#" && p.contentType == "application/json"
    ensures p.body == Body(t)
    ensures TaskOf(p.body) == Some(t)
  {
    TaskOfBody(t);
    Publication("#", Body(t), "application/json")
  }

  /** The consumer's subscription options. */
  const Prefetch: nat := 10

  /** The `exchange` variable: null, the promise of a declaration still in
      progress (with the publishes waiting on it, in call order), or a
      declared exchange. */
  datatype Exchange = NoExchange | Declaring(waiting: seq<Task>) | Declared

  /** The module state after `start()`: `connection` is the promise `start`
      stores, unsettled until `ready` or `error`. The two `once` listeners are
      `readyHandled` and `errorHandled`; `queueRequested` and `subscribed`
      track the task queue. */
  datatype State = State(
    connection: Settlement<()>,
    readyHandled: bool,
    errorHandled: bool,
    queueRequested: bool,
    subscribed: bool,
    exchange: Exchange)

  const Started: State := State(Unsettled, false, false, false, false, NoExchange)

  /** What happens to the module: the connection's `ready` and `error`
      events, the broker's callbacks for the declared queue and exchange, a
      call of `publishTask`, and the delivery of a message to the consumer. */
  datatype Event =
    | Ready
    | ConnectionError(err: Value)
    | QueueOpened
    | ExchangeOpened
    | PublishTask(task: Task)
    | Deliver(tag: nat)

  /** What the module does: declare the queue, declare the exchange,
      subscribe with the given options, publish, acknowledge one delivery
      (`acknowledge(false)`: only that message), or throw out of
      `publishTask`. */
  datatype Effect =
    | DeclareQueue
    | DeclareExchange
    | Subscribe(ack: bool, prefetch: nat)
    | Send(pub: Publication)
    | Ack(tag: nat, all: bool)
    | Threw(exception: Value)

  datatype Step = Step(state: State, effects: seq<Effect>)

  /** The sends for `tasks`, in order. */
  function Sends(tasks: seq<Task>): (r: seq<Effect>)
    ensures |r| == |tasks|
    ensures forall i :: 0 <= i < |tasks| ==> r[i] == Send(Publish(tasks[i]))
  {
    if |tasks| == 0 then [] else [Send(Publish(tasks[0]))] + Sends(tasks[1..])
  }

  /** One event. The first `ready` declares the queue and the exchange and
      installs the exchange promise; a later `ready` is not listened for. The
      first `error` rejects the connection promise, which has no effect once
      it is resolved; nothing reconnects. A publish before the first `ready`
      reads `then` of null and throws; one while the declaration is pending
      waits for it; the exchange callback sends the waiting publishes in call
      order. Every delivery is acknowledged, by itself. */
  function Next(s: State, e: Event): (r: Step)
    ensures s.exchange != NoExchange ==> r.state.exchange != NoExchange
    ensures s.readyHandled ==> r.state.readyHandled
    ensures s.readyHandled && s.exchange.Declared? ==> r.state.exchange.Declared?
    ensures s.connection.Rejected? ==> r.state.connection == s.connection
    ensures s.connection.Resolved? ==> r.state.connection == s.connection
    ensures (DeclareQueue in r.effects || DeclareExchange in r.effects) <==> e.Ready? && !s.readyHandled
  {
    match e
    case Ready =>
      if s.readyHandled then Step(s, [])
      else
        var connection := if s.connection.Unsettled? then Resolved(()) else s.connection;
        Step(s.(connection := connection, readyHandled := true, queueRequested := true, exchange := Declaring([])),
             [DeclareQueue, DeclareExchange])
    case ConnectionError(err) =>
      if s.errorHandled then Step(s, [])
      else
        var connection := if s.connection.Unsettled? then Rejected(err) else s.connection;
        Step(s.(connection := connection, errorHandled := true), [])
    case QueueOpened =>
      if s.queueRequested && !s.subscribed then
        Step(s.(subscribed := true), [Subscribe(true, Prefetch)])
      else Step(s, [])
    case ExchangeOpened =>
      (match s.exchange
       case Declaring(waiting) => Step(s.(exchange := Declared), Sends(waiting))
       case _ => Step(s, []))
    case PublishTask(t) =>
      (match s.exchange
       case NoExchange => Step(s, [Threw(TypeErrorValue)])
       case Declaring(waiting) => Step(s.(exchange := Declaring(waiting + [t])), [])
       case Declared => Step(s, [Send(Publish(t))]))
    case Deliver(tag) =>
      if s.subscribed then Step(s, [Ack(tag, false)]) else Step(s, [])
  }

  function Run(s: State, events: seq<Event>): Step
    decreases |events|
  {
    if |events| == 0 then Step(s, [])
    else
      var first := Next(s, events[0]);
      var rest := Run(first.state, events[1..]);
      Step(rest.state, first.effects + rest.effects)
  }

  /** Topology is declared on the first `ready` only: over any run, the queue
      and the exchange are each declared once at most, and not at all once
      `ready` has been handled. */
  lemma {:induction false} TopologyDeclaredOnce(s: State, events: seq<Event>)
    ensures Count(DeclareQueue, Run(s, events).effects) <= (if s.readyHandled then 0 else 1)
    ensures Count(DeclareExchange, Run(s, events).effects) <= (if s.readyHandled then 0 else 1)
    decreases |events|
  {
    if |events| > 0 {
      var first := Next(s, events[0]);
      TopologyDeclaredOnce(first.state, events[1..]);
      CountAppend(DeclareQueue, first.effects, Run(first.state, events[1..]).effects);
      CountAppend(DeclareExchange, first.effects, Run(first.state, events[1..]).effects);
      if s.readyHandled || !events[0].Ready? {
        CountAbsent(DeclareQueue, first.effects);
        CountAbsent(DeclareExchange, first.effects);
      }
    }
  }

  /** The tasks of the `publishTask` calls among `events`, in order. */
  function Published(events: seq<Event>): seq<Task> {
    if |events| == 0 then []
    else (if events[0].PublishTask? then [events[0].task] else []) + Published(events[1..])
  }

  /** The tasks sent, in order. */
  function SentTasks(effects: seq<Effect>): seq<Task> {
    if |effects| == 0 then []
    else
      (match effects[0]
       case Send(p) => (match TaskOf(p.body) case Some(t) => [t] case None => [])
       case _ => []) + SentTasks(effects[1..])
  }

  lemma {:induction false} SentTasksAppend(a: seq<Effect>, b: seq<Effect>)
    ensures SentTasks(a + b) == SentTasks(a) + SentTasks(b)
  {
    if |a| == 0 {
      assert a + b == b;
    } else {
      assert (a + b)[1..] == a[1..] + b;
      SentTasksAppend(a[1..], b);
    }
  }

  lemma {:induction false} SentTasksSends(tasks: seq<Task>)
    ensures SentTasks(Sends(tasks)) == tasks
  {
    if |tasks| > 0 {
      SentTasksSends(tasks[1..]);
      assert Sends(tasks)[1..] == Sends(tasks[1..]);
    }
  }

  /** The publishes still waiting for the exchange. */
  function Waiting(s: State): seq<Task> {
    if s.exchange.Declaring? then s.exchange.waiting else []
  }

  /** Once `ready` has installed the exchange promise, no publish is lost,
      duplicated or reordered: what has been sent, followed by what still
      waits, is what was waiting before followed by every task published,
      in call order. */
  lemma {:induction false} PublishesKeepOrder(s: State, events: seq<Event>)
    requires s.readyHandled && s.exchange != NoExchange
    ensures SentTasks(Run(s, events).effects) + Waiting(Run(s, events).state) == Waiting(s) + Published(events)
    decreases |events|
  {
    if |events| > 0 {
      var first := Next(s, events[0]);
      var rest := Run(first.state, events[1..]);
      PublishesKeepOrder(first.state, events[1..]);
      SentTasksAppend(first.effects, rest.effects);
      NextKeepsOrder(s, events[0]);
      var head := if events[0].PublishTask? then [events[0].task] else [];
      assert Run(s, events) == Step(rest.state, first.effects + rest.effects);
      assert Published(events) == head + Published(events[1..]);
      AppendShape(SentTasks(first.effects), SentTasks(rest.effects), Waiting(rest.state),
                  Waiting(first.state), Published(events[1..]), Waiting(s), head);
    }
  }

  lemma AppendShape<T>(a: seq<T>, b: seq<T>, w: seq<T>, w1: seq<T>, p: seq<T>, w0: seq<T>, h: seq<T>)
    requires b + w == w1 + p
    requires a + w1 == w0 + h
    ensures (a + b) + w == w0 + (h + p)
  {
    calc {
      (a + b) + w;
      a + (b + w);
      a + (w1 + p);
      (a + w1) + p;
      (w0 + h) + p;
    }
  }

  /** One event keeps the order of the publishes. */
  lemma NextKeepsOrder(s: State, e: Event)
    requires s.readyHandled && s.exchange != NoExchange
    ensures SentTasks(Next(s, e).effects) + Waiting(Next(s, e).state) ==
      Waiting(s) + (if e.PublishTask? then [e.task] else [])
  {
    var r := Next(s, e);
    match e
    case ExchangeOpened =>
      if s.exchange.Declaring? {
        SentTasksSends(s.exchange.waiting);
      }
    case PublishTask(t) =>
      TaskOfBody(t);
      assert SentTasks([Send(Publish(t))]) == [t];
    case Deliver(tag) =>
      assert SentTasks(r.effects) == [];
    case QueueOpened =>
      assert SentTasks(r.effects) == [];
    case _ =>
      assert r.effects == [];
  }

  /** Once the exchange is declared, every publish is sent at once. */
  lemma DeclaredPublishesAll(s: State, events: seq<Event>)
    requires s.readyHandled && s.exchange.Declared?
    ensures SentTasks(Run(s, events).effects) == Published(events)
  {
    PublishesKeepOrder(s, events);
    RunKeepsDeclared(s, events);
    assert Waiting(s) == [] && Waiting(Run(s, events).state) == [];
    var sent := SentTasks(Run(s, events).effects);
    assert sent + [] == [] + Published(events);
    assert sent + [] == sent && [] + Published(events) == Published(events);
  }

  lemma {:induction false} RunKeepsDeclared(s: State, events: seq<Event>)
    requires s.readyHandled && s.exchange.Declared?
    ensures Run(s, events).state.exchange.Declared?
    decreases |events|
  {
    if |events| > 0 {
      RunKeepsDeclared(Next(s, events[0]).state, events[1..]);
    }
  }

  /** `publishTask` before the first `ready` throws and changes nothing. */
  lemma PublishBeforeReadyThrows(s: State, t: Task)
    requires !s.readyHandled && Reachable(s)
    ensures Next(s, PublishTask(t)) == Step(s, [Threw(TypeErrorValue)])
  {
  }

  /** The states `start` can lead to: the exchange promise and the queue
      declaration exist exactly when `ready` has been handled. */
  ghost predicate Reachable(s: State) {
    && (s.readyHandled <==> s.exchange != NoExchange)
    && (s.readyHandled <==> s.queueRequested)
    && (s.subscribed ==> s.queueRequested)
    && (s.connection.Resolved? ==> s.readyHandled)
    && (s.connection.Rejected? ==> s.errorHandled)
  }

  lemma {:induction false} RunReachable(s: State, events: seq<Event>)
    requires Reachable(s)
    ensures Reachable(Run(s, events).state)
    decreases |events|
  {
    if |events| > 0 {
      RunReachable(Next(s, events[0]).state, events[1..]);
    }
  }

  /** The consumer acknowledges each delivery exactly once, by itself, and
      publishes nothing. */
  lemma DeliveryAcknowledged(s: State, tag: nat)
    requires s.subscribed
    ensures Next(s, Deliver(tag)) == Step(s, [Ack(tag, false)])
  {
  }

  /** An `error` before `ready` rejects the connection promise for good: no
      later event resolves it, and no event starts a new connection. */
  lemma {:induction false} ErrorIsFinal(s: State, err: Value, events: seq<Event>)
    requires s.connection.Unsettled? && !s.errorHandled
    ensures Run(s, [ConnectionError(err)] + events).state.connection == Rejected(err)
  {
    assert ([ConnectionError(err)] + events)[1..] == events;
    RunKeepsRejected(Next(s, ConnectionError(err)).state, events);
  }

  lemma {:induction false} RunKeepsRejected(s: State, events: seq<Event>)
    requires s.connection.Rejected?
    ensures Run(s, events).state.connection == s.connection
    decreases |events|
  {
    if |events| > 0 {
      RunKeepsRejected(Next(s, events[0]).state, events[1..]);
    }
  }
}

=== FILE: route.dfy ===
/** The HTTP layer (lib/route.js): the API table, the path registered for
    each entry, the mapping of a request onto the handler's positional
    arguments, the raw-body accumulation, and the status code and body of
    every answer.

    The handlers themselves are abstract: a handler is a function from its
    arguments to what calling it does (throw, or return a promise and how that
    promise settles). */
module Route {
  import opened Js
  import Messages

  /** The pseudo-argument that receives the parsed request body. */
  const RawToken: string := "__raw__"

  datatype HttpMethod = Get | Post

  /** One API entry: its name, its declared arguments, its HTTP method, and
      whether its handler function exists (`build.buildInfo` and
      `build.removeBuild` are not exported by the build module). */
  datatype Entry = Entry(name: string, args: seq<string>, verb: HttpMethod, bound: bool)

  /** The API map, in the order its routes are registered. */
  const Table: seq<Entry> := [
    Entry("me", ["key"], Get, true),
    Entry("init", ["user", "project", "fs"], Get, true),
    Entry("info", ["user", "project", "fs", "uid"], Get, false),
    Entry("remove", ["user", "project", "uid"], Get, false),
    Entry("build", ["user", "project", "fs", "uid", "key", RawToken], Post, true)
  ]

  /** The declared arguments that are path parameters, in order. */
  function NonRaw(args: seq<string>): (r: seq<string>)
    ensures |r| == |args| - Count(RawToken, args)
    ensures RawToken !in r
    ensures forall a :: a in r <==> a in args && a != RawToken
  {
    if |args| == 0 then []
    else if args[0] == RawToken then NonRaw(args[1..])
    else [args[0]] + NonRaw(args[1..])
  }

  /** The route string: `['/' + name]` followed by the non-raw arguments,
      joined with `/:`. */
  function RoutePath(name: string, args: seq<string>): string {
    Join("/:", ["/" + name] + NonRaw(args))
  }

  /** One `/:arg` segment per name, in order. */
  function Params(names: seq<string>): string {
    if |names| == 0 then "" else "/:" + names[0] + Params(names[1..])
  }

  lemma {:induction false} JoinAfterHead(head: string, rest: seq<string>)
    ensures Join("/:", [head] + rest) == head + Params(rest)
    decreases |rest|
  {
    if |rest| == 0 {
      assert [head] + rest == [head];
    } else {
      JoinAfterHead(rest[0], rest[1..]);
      assert ([head] + rest)[1..] == [rest[0]] + rest[1..];
    }
  }

  /** The path is `/name` followed by `/:arg` for each non-raw argument, in
      declared order. */
  lemma RoutePathShape(name: string, args: seq<string>)
    ensures RoutePath(name, args) == "/" + name + Params(NonRaw(args))
  {
    JoinAfterHead("/" + name, NonRaw(args));
  }

  /** The raw-body pseudo-argument contributes nothing to the path. */
  lemma RoutePathIgnoresRaw(name: string, args: seq<string>)
    ensures RoutePath(name, args) == RoutePath(name, NonRaw(args))
    ensures RoutePath(name, args + [RawToken]) == RoutePath(name, args)
  {
    NonRawIdempotent(args);
    NonRawAppendRaw(args);
  }

  lemma {:induction false} NonRawIdempotent(args: seq<string>)
    ensures NonRaw(NonRaw(args)) == NonRaw(args)
  {
    if |args| > 0 {
      NonRawIdempotent(args[1..]);
      if args[0] != RawToken {
        assert ([args[0]] + NonRaw(args[1..]))[1..] == NonRaw(args[1..]);
      }
    }
  }

  /** Dropping the raw token keeps the order of the rest: it distributes
      over concatenation, and one name survives exactly when it is not the
      token. */
  lemma {:induction false} NonRawAppend(a: seq<string>, b: seq<string>)
    ensures NonRaw(a + b) == NonRaw(a) + NonRaw(b)
    ensures forall x :: NonRaw([x]) == (if x == RawToken then [] else [x])
  {
    if |a| == 0 {
      assert a + b == b;
    } else {
      assert (a + b)[1..] == a[1..] + b;
      NonRawAppend(a[1..], b);
    }
    forall x
      ensures NonRaw([x]) == (if x == RawToken then [] else [x])
    {
      assert [x][1..] == [];
    }
  }

  lemma {:induction false} NonRawAppendRaw(args: seq<string>)
    ensures NonRaw(args + [RawToken]) == NonRaw(args)
  {
    if |args| == 0 {
      assert NonRaw([RawToken]) == NonRaw([]);
    } else {
      assert (args + [RawToken])[1..] == args[1..] + [RawToken];
      NonRawAppendRaw(args[1..]);
    }
  }

  lemma {:induction false} ParamsColons(names: seq<string>)
    requires forall a :: a in names ==> ':' !in a
    ensures Count(':', Params(names)) == |names|
  {
    if |names| > 0 {
      ParamsColons(names[1..]);
      assert ':' !in names[0];
      CountAbsent(':', names[0]);
      CountAppend(':', "/:" + names[0], Params(names[1..]));
      CountAppend(':', "/:", names[0]);
    }
  }

  /** When no name contains a colon, the path has one `:` parameter per
      non-raw argument. */
  lemma RouteParameterCount(name: string, args: seq<string>)
    requires ':' !in name
    requires forall a :: a in args ==> ':' !in a
    ensures Count(':', RoutePath(name, args)) == |NonRaw(args)|
  {
    RoutePathShape(name, args);
    ParamsColons(NonRaw(args));
    CountAbsent(':', "/" + name);
    CountAppend(':', "/" + name, Params(NonRaw(args)));
  }

  /** The five registered paths: `/me/:key`, `/init/:user/:project/:fs`,
      `/info/:user/:project/:fs/:uid`, `/remove/:user/:project/:uid` and
      `/build/:user/:project/:fs/:uid/:key`. */
  lemma TablePaths()
    ensures RoutePath(Table[0].name, Table[0].args) == "/me/:key"
    ensures RoutePath(Table[1].name, Table[1].args) == "/init" + Params(["user", "project", "fs"])
    ensures RoutePath(Table[2].name, Table[2].args) == "/info" + Params(["user", "project", "fs", "uid"])
    ensures RoutePath(Table[3].name, Table[3].args) == "/remove" + Params(["user", "project", "uid"])
    ensures RoutePath(Table[4].name, Table[4].args) == "/build" + Params(["user", "project", "fs", "uid", "key"])
  {
    MePath();
    InitPath();
    InfoPath();
    RemovePath();
    BuildPath();
  }

  lemma InitPath()
    ensures RoutePath(Table[1].name, Table[1].args) == "/init" + Params(["user", "project", "fs"])
  {
    EntryPath("init", ["user", "project", "fs"], "/init");
  }

  lemma InfoPath()
    ensures RoutePath(Table[2].name, Table[2].args) == "/info" + Params(["user", "project", "fs", "uid"])
  {
    EntryPath("info", ["user", "project", "fs", "uid"], "/info");
  }

  lemma RemovePath()
    ensures RoutePath(Table[3].name, Table[3].args) == "/remove" + Params(["user", "project", "uid"])
  {
    EntryPath("remove", ["user", "project", "uid"], "/remove");
  }

  lemma BuildPath()
    ensures RoutePath(Table[4].name, Table[4].args) == "/build" + Params(["user", "project", "fs", "uid", "key"])
  {
    var args := ["user", "project", "fs", "uid", "key"];
    assert Table[4].args == args + [RawToken];
    RoutePathIgnoresRaw("build", args);
    EntryPath("build", args, "/build");
  }

  lemma {:induction false} NonRawWithoutRaw(args: seq<string>)
    requires forall i :: 0 <= i < |args| ==> |args[i]| > 0 && args[i][0] != RawToken[0]
    ensures NonRaw(args) == args
  {
    if |args| > 0 {
      assert args[0] != RawToken;
      NonRawWithoutRaw(args[1..]);
    }
  }

  lemma EntryPath(name: string, args: seq<string>, head: string)
    requires head == "/" + name
    requires forall i :: 0 <= i < |args| ==> |args[i]| > 0 && args[i][0] != RawToken[0]
    ensures RoutePath(name, args) == head + Params(args)
  {
    NonRawWithoutRaw(args);
    RoutePathShape(name, args);
  }

  lemma MePath()
    ensures RoutePath(Table[0].name, Table[0].args) == "/me/:key"
  {
    EntryPath("me", ["key"], "/me");
    assert Params(["key"]) == "/:key" by {
      assert ["key"][1..] == [];
    }
  }

  /** An express request as the handler sees it: the path parameters and the
      accumulated raw body. */
  datatype Request = Request(params: map<string, string>, rawBody: string)

  /** The value `getArguments` pushes for one declared argument:
      `JSON.parse(rawBody)` for the raw token, `req.params[arg]` otherwise. */
  function Argument(req: Request, arg: string, parse: string -> Option<Value>): (r: Thrown<Value>)
    ensures r.Throws? <==> arg == RawToken && parse(req.rawBody).None?
    ensures r.Throws? ==> r.exception == SyntaxErrorValue
    ensures arg == RawToken && r.Returned? ==> parse(req.rawBody) == Some(r.value)
    ensures arg != RawToken && arg in req.params ==> r == Returned(Str(req.params[arg]))
    ensures arg != RawToken && arg !in req.params ==> r == Returned(Undefined)
  {
    if arg == RawToken then
      match parse(req.rawBody)
      case Some(v) => Returned(v)
      case None => Throws(SyntaxErrorValue)
    else if arg in req.params then Returned(Str(req.params[arg]))
    else Returned(Undefined)
  }

  /** `getArguments(req, from)`: one value per declared argument, in the same
      order; a body that does not parse throws out of the loop. */
  function Arguments(req: Request, from: seq<string>, parse: string -> Option<Value>): (r: Thrown<seq<Value>>)
    ensures r.Throws? <==> RawToken in from && parse(req.rawBody).None?
    ensures r.Throws? ==> r.exception == SyntaxErrorValue
    ensures r.Returned? ==> |r.value| == |from|
    ensures r.Returned? ==> forall i :: 0 <= i < |from| ==> Argument(req, from[i], parse) == Returned(r.value[i])
    ensures r.Returned? ==> forall i :: 0 <= i < |from| ==>
      r.value[i] == (if from[i] == RawToken then parse(req.rawBody).value
                     else if from[i] in req.params then Str(req.params[from[i]])
                     else Undefined)
  {
    if |from| == 0 then Returned([])
    else
      match Argument(req, from[0], parse)
      case Throws(x) => Throws(x)
      case Returned(v) =>
        match Arguments(req, from[1..], parse)
        case Throws(x) => Throws(x)
        case Returned(vs) =>
          assert forall i :: 1 <= i < |from| ==> from[i] == from[1..][i - 1];
          Returned([v] + vs)
  }

  /** The raw body: the data chunks concatenated in arrival order. */
  function Concat(chunks: seq<string>): string {
    if |chunks| == 0 then "" else chunks[0] + Concat(chunks[1..])
  }

  lemma {:induction false} ConcatSnoc(chunks: seq<string>, chunk: string)
    ensures Concat(chunks + [chunk]) == Concat(chunks) + chunk
  {
    if |chunks| == 0 {
      assert chunks + [chunk] == [chunk];
    } else {
      assert (chunks + [chunk])[1..] == chunks[1..] + [chunk];
      ConcatSnoc(chunks[1..], chunk);
    }
  }

  /** The body middleware: start from `''` and append each `data` chunk as
      it arrives; the body is complete on `end`. */
  method AccumulateBody(chunks: seq<string>) returns (rawBody: string)
    ensures rawBody == Concat(chunks)
    ensures forall k :: 0 <= k < |chunks| ==> |chunks[k]| <= |rawBody|
  {
    rawBody := "";
    var i := 0;
    while i < |chunks|
      invariant 0 <= i <= |chunks|
      invariant rawBody == Concat(chunks[..i])
    {
      ConcatSnoc(chunks[..i], chunks[i]);
      assert chunks[..i + 1] == chunks[..i] + [chunks[i]];
      rawBody := rawBody + chunks[i];
      i := i + 1;
    }
    assert chunks[..i] == chunks;
    ConcatContains(chunks);
  }

  lemma {:induction false} ConcatContains(chunks: seq<string>)
    ensures forall k :: 0 <= k < |chunks| ==> |chunks[k]| <= |Concat(chunks)|
  {
    if |chunks| > 0 {
      ConcatContains(chunks[1..]);
      assert forall k :: 1 <= k < |chunks| ==> chunks[k] == chunks[1..][k - 1];
    }
  }

  /** What calling a handler does: it throws synchronously, or it returns a
      promise that settles (or never does). */
  type Invocation = Thrown<Settlement<Value>>

  /** The answer to a request. `NoResponse` is a request that is never
      answered; `PassedOn` is a falsy exception, which express does not treat
      as an error and passes to its own fallback handling. */
  datatype Response = Sent(status: int, body: string) | NoResponse | PassedOn

  /** The error middleware: status 500 and the failure envelope. Express only
      calls it with a truthy error. */
  function ErrorMiddleware(err: Value): (r: Response)
    requires Truthy(err)
    ensures r.Sent? && r.status == 500
    ensures Messages.ErrorMessage(err) == Returned(r.body)
  {
    Sent(500, Messages.ErrorMessage(err).value)
  }

  /** The route callback for `e`, end to end: collect the arguments, call the
      handler, and answer 200 with the success envelope when its promise
      resolves or 200 with the failure envelope when it rejects. Anything
      thrown synchronously (a body that does not parse, a handler that does
      not exist) reaches the error middleware. A rejection whose failure
      envelope throws (`undefined`) leaves the request unanswered. */
  function Respond(e: Entry, req: Request, parse: string -> Option<Value>,
                   invoke: seq<Value> -> Invocation): (r: Response)
    ensures r.Sent? ==> r.status == 200 || r.status == 500
    ensures !e.bound ==> r == ErrorMiddleware(TypeErrorValue)
    ensures RawToken in e.args && parse(req.rawBody).None? ==> r == ErrorMiddleware(SyntaxErrorValue)
  {
    match Arguments(req, e.args, parse)
    case Throws(x) => ErrorMiddleware(x)
    case Returned(args) =>
      if !e.bound then ErrorMiddleware(TypeErrorValue)
      else
        match invoke(args)
        case Throws(x) => if Truthy(x) then ErrorMiddleware(x) else PassedOn
        case Returned(Resolved(data)) => Sent(200, Messages.SuccessMessage(data))
        case Returned(Rejected(err)) =>
          (match Messages.ErrorMessage(err)
           case Returned(body) => Sent(200, body)
           case Throws(_) => NoResponse)
        case Returned(Unsettled) => NoResponse
  }

  /** A handler whose promise settles is answered with status 200 whether it
      resolved or rejected: the body is the success envelope of the value or
      the failure envelope of the reason. */
  lemma SettledHandlerAnswers200(e: Entry, req: Request, parse: string -> Option<Value>,
                                 invoke: seq<Value> -> Invocation, args: seq<Value>)
    requires e.bound
    requires Arguments(req, e.args, parse) == Returned(args)
    ensures invoke(args).Returned? && invoke(args).value.Resolved? ==>
      Respond(e, req, parse, invoke) == Sent(200, Messages.SuccessMessage(invoke(args).value.value))
    ensures invoke(args).Returned? && invoke(args).value.Rejected? && invoke(args).value.reason != Undefined ==>
      Respond(e, req, parse, invoke) == Sent(200, Messages.ErrorMessage(invoke(args).value.reason).value)
  {
  }

  /** The `info` and `remove` routes always answer 500: their handlers do not
      exist, so calling one throws, and the thrown error object serialises as
      `{}`. */
  lemma UnboundRoutesFail(req: Request, parse: string -> Option<Value>, invoke: seq<Value> -> Invocation)
    ensures Respond(Table[2], req, parse, invoke) == ErrorMiddleware(TypeErrorValue)
    ensures Respond(Table[3], req, parse, invoke) == ErrorMiddleware(TypeErrorValue)
    ensures ErrorMiddleware(TypeErrorValue).status == 500
  {
  }
}

=== FILE: utils.dfy ===
/** Path helpers (lib/utils.js): `escape` turns a user or project name into a
    safe path component, and `projectPath` substitutes the escaped names into
    the configured directory template.

    JavaScript strings are sequences of UTF-16 code units and the regular
    expression in `escape` has no `u` flag, so a character outside the Basic
    Multilingual Plane is two code units and becomes two dashes. */
module Utils {
  import opened Js

  predicate IsAsciiAlnum(c: char) {
    'a' <= c <= 'z' || 'A' <= c <= 'Z' || '0' <= c <= '9'
  }

  /** The characters an escaped name consists of: `[a-z0-9-]`. */
  predicate IsSlugChar(c: char) {
    'a' <= c <= 'z' || '0' <= c <= '9' || c == '-'
  }

  predicate IsSlug(s: string) {
    forall i :: 0 <= i < |s| ==> IsSlugChar(s[i])
  }

  /** A character that UTF-16 writes as a surrogate pair. */
  predicate IsAstral(c: char) {
    c as int >= 0x10000
  }

  predicate IsBmp(s: string) {
    forall i :: 0 <= i < |s| ==> !IsAstral(s[i])
  }

  /** The `length` JavaScript reports for `s`. */
  function Utf16Length(s: string): (n: nat)
    ensures n >= |s|
    ensures IsBmp(s) ==> n == |s|
  {
    if |s| == 0 then 0
    else (if IsAstral(s[0]) then 2 else 1) + Utf16Length(s[1..])
  }

  /** ASCII lower-casing, the only case mapping left to do once every other
      character has been replaced. */
  function Lower(c: char): (r: char)
    ensures IsAsciiAlnum(c) ==> IsSlugChar(r)
  {
    if 'A' <= c <= 'Z' then (c as int + 32) as char else c
  }

  /** What `replace(/[^a-z0-9]/gi, '-').toLowerCase()` makes of one character. */
  function EscapeChar(c: char): string {
    if IsAsciiAlnum(c) then [Lower(c)]
    else if IsAstral(c) then "--"
    else "-"
  }

  /** The escaping of a string: one output character per UTF-16 code unit,
      each in `[a-z0-9-]`; on a string without astral characters, position by
      position, a letter or digit is kept (lower-cased) and anything else
      becomes `-`. */
  function EscapeText(s: string): (r: string)
    ensures |r| == Utf16Length(s)
    ensures IsSlug(r)
    ensures IsBmp(s) ==> forall i :: 0 <= i < |s| ==> r[i] == (if IsAsciiAlnum(s[i]) then Lower(s[i]) else '-')
  {
    if |s| == 0 then ""
    else
      var head := EscapeChar(s[0]);
      var tail := EscapeText(s[1..]);
      assert forall i :: |head| <= i < |head + tail| ==> (head + tail)[i] == tail[i - |head|];
      assert IsBmp(s) ==> IsBmp(s[1..]) && |head| == 1 by {
        if IsBmp(s) {
          forall i | 0 <= i < |s[1..]| ensures !IsAstral(s[1..][i]) {
            assert s[1..][i] == s[i + 1];
          }
        }
      }
      head + tail
  }

  /** Escaping leaves an escaped name alone. */
  lemma {:induction false} EscapeKeepsSlug(s: string)
    requires IsSlug(s)
    ensures EscapeText(s) == s
  {
    if |s| > 0 {
      assert IsSlug(s[1..]) by {
        forall i | 0 <= i < |s[1..]| ensures IsSlugChar(s[1..][i]) {
          assert s[1..][i] == s[i + 1];
        }
      }
      EscapeKeepsSlug(s[1..]);
      assert EscapeChar(s[0]) == [s[0]];
    }
  }

  /** `escape` is idempotent. */
  lemma EscapeTextIdempotent(s: string)
    ensures EscapeText(EscapeText(s)) == EscapeText(s)
  {
    EscapeKeepsSlug(EscapeText(s));
  }

  /** `utils.escape(value)`: `(value || '').replace(...).toLowerCase()`. A
      falsy value becomes the empty string; a truthy value that is not a
      string has no `replace` method, and calling it throws. */
  function Escape(value: Value): (r: Thrown<string>)
    ensures !Truthy(value) ==> r == Returned("")
    ensures r.Throws? <==> Truthy(value) && !value.Str?
    ensures r.Returned? ==> IsSlug(r.value)
    ensures value.Str? ==> r == Returned(EscapeText(value.s))
  {
    if !Truthy(value) then Returned("")
    else if value.Str? then Returned(EscapeText(value.s))
    else Throws(TypeErrorValue)
  }

  /** The configured project directory template, as literal text and the two
      places where the escaped user and project are substituted. */
  datatype Piece = Text(text: string) | UserSlot | ProjectSlot
  type Template = seq<Piece>

  /** All literal text of a template. */
  function Literals(tpl: Template): string {
    if |tpl| == 0 then ""
    else (if tpl[0].Text? then tpl[0].text else "") + Literals(tpl[1..])
  }

  /** The template with both slots filled in. Every character of the result
      comes from the template's literal text or from one of the two values. */
  function Render(tpl: Template, user: string, project: string): (r: string)
    ensures forall c :: c in r ==> c in Literals(tpl) || c in user || c in project
  {
    if |tpl| == 0 then ""
    else
      var head := match tpl[0] case Text(t) => t case UserSlot => user case ProjectSlot => project;
      head + Render(tpl[1..], user, project)
  }

  /** `utils.projectPath(user, project)`: both names are escaped before they
      are substituted, so a separator or a dot in the path can only come from
      the template itself. */
  function ProjectPath(tpl: Template, user: Value, project: Value): (r: Thrown<string>)
    ensures r.Returned? <==> Escape(user).Returned? && Escape(project).Returned?
    ensures r.Returned? ==> forall c :: c in r.value ==> c in Literals(tpl) || IsSlugChar(c)
    ensures r.Returned? && '/' in r.value ==> '/' in Literals(tpl)
    ensures r.Returned? && '.' in r.value ==> '.' in Literals(tpl)
  {
    match Escape(user)
    case Throws(x) => Throws(x)
    case Returned(u) =>
      match Escape(project)
      case Throws(x) => Throws(x)
      case Returned(p) =>
        assert forall c :: c in u ==> IsSlugChar(c);
        assert forall c :: c in p ==> IsSlugChar(c);
        Returned(Render(tpl, u, p))
  }
}
